=== FILE: README.md ===
# Payment reconciliation of CUFS reports, modelled in Dafny

This project models the payment-reconciliation loop of the CUFS parser,
`Parser.plug_in_payment_data` in `common/cufs.py`, and the parser's constructor, which
sets up the manual OA-to-ZD table. The loop reads the rows of a payment report in order,
counting them from zero. It does four things with each row:

1. It derives a Zendesk ticket (ZD) number:
   - it first corrects typos in the reference text;
   - it searches for `OA[ \-]?[0-9]{4,8}` and resolves the match through the manual table,
     then through the general OA-to-ZD table;
   - when there is no OA match, it falls back to `ZD[ \-]?[0-9]{4,8}`;
   - it then applies the invoice and description override tables, and the ticket-number
     typo table.
2. It classifies the row by:
   - whether the report has a transaction-code column;
   - the source-of-funds code (`JUDB`);
   - the transaction code (`EBDU` for APC, `EBDV`/`EBDW` for other costs).
3. It logs the row in the included or rejected dictionary of its funder, under a key made of
   a branch prefix and the row number.
4. For an accepted row, it merges the row into the per-ticket aggregate of its category:
   - amounts are summed;
   - differing fields are joined with `' %&% '`;
   - pay dates take the newest value;
   - for other costs, the transaction code is joined with the APC code.

   The aggregate is then copied into the ticket's entry of the master dictionary `zd_dict`.

## Modules

- **Options:** the `Option` datatype that every module shares.
- **Text:** the pieces of Python's `str` that the loop relies on.
- **Amounts:** amounts as exact pence, with a parser for amount texts and the `str` of a total.
- **Patterns:** the two fixed regular expressions and their normalisations.
- **Rows, Tickets:** the ticket-number derivation. Python exceptions become `Fault` values.
- **Payments:** classification and the per-field merge. `MergeRow` is the field loop itself.
- **Reconcile:**
  - `Step` and `RunFrom` specify one row and the whole loop;
  - class `Ledger` holds the module-level dictionaries that the loop updates in place;
  - class `Parser` holds the imperative loop (`PlugInPaymentData` over `ProcessRow`), which is
    proved to meet that specification.
- **Effects:** what one iteration does in each branch.
- **Totals:** the run-level theorem about the totals left in the master dictionary.

A row that makes the source raise (a missing column, an amount that is not a number, a
ticket without a master entry, an override table hit only after stripping) ends the run with
`Aborted(n, fault)`. Everything the rows before it wrote is kept, and so is the failing row's
own log entry.

In four places the code does something other than what one would expect of it. The model
follows the code in all four.

- **Hyphenated OA numbers.** One would expect "OA-1234" and "oa 1234" to be looked up under
  the same key. The code applies `replace("OA", "OA-")` to a match that already holds the
  hyphen, so "OA-1234" is looked up as "OA--1234" (`Tickets.HyphenatedReference`).
- **Whether a bad row stops the run.** One would expect a malformed row to be skipped, and a
  non-numeric amount to count as zero. The code raises `KeyError` or `ValueError`:
  - on a missing column;
  - on a non-numeric amount;
  - on a ticket with no master entry.

  The only default to zero is a first APC record with no amount column, on the
  no-transaction-field path.
- **The transaction code of a later other-cost payment.** One would expect the generic field
  rule (old and new codes joined when they differ) when the ticket has no APC aggregate, or
  an APC aggregate with an empty code. The code (common/cufs.py:176-183) stores the new code
  alone in that case (`Effects.OtherCostCode`).
- **The transaction code of a first other-cost payment.** One would expect a ticket that
  already has an APC payment to keep its APC code "EBDU" in the master dictionary, or to get
  the two codes joined, as later other-cost payments do. The first other-cost payment for a
  ticket is stored as the row itself (common/cufs.py:188-192), and the master update
  (common/cufs.py:201) then replaces "EBDU" with "EBDV" or "EBDW"
  (`Effects.FirstOtherCostCode`).

## Model

| member | source | states |
|---|---|---|
| `Reconcile.Parser.constructor` | common/cufs.py:42-60 | the manual OA-to-ZD table holds exactly the eight fixed pairs, and the general table is the one given |
| `Tickets.FixReference` | common/cufs.py:94-95 | a reference with a typo entry becomes that entry; the correction changes only the reference column, keeps the row's columns, and leaves a row whose reference has no entry unchanged |
| `Tickets.DeriveTicket` | common/cufs.py:94-122 | the derivation succeeds only with a reference column, works on the corrected row, and raises a KeyError when the reference or invoice column is missing |
| `Tickets.TicketOf` | common/cufs.py:120-122 | an empty candidate gives no ticket and is never run through the ticket typo table; a non-empty candidate with a typo entry becomes that entry; a candidate with no typo entry is the ticket itself |
| `Tickets.Candidate` | common/cufs.py:96-112 | the ticket number the two patterns give; its partners `Tickets.OaCandidate`, `Tickets.ZdCandidate` and `Tickets.NoPatternNoCandidate` state it for every text |
| `Tickets.LookupOa` | common/cufs.py:100-108 | the manual table first, then the general table, else ""; `Tickets.ManualExample` shows the manual table winning |
| `Tickets.Override` | common/cufs.py:114-118 | an override tests the stripped key and looks up the raw one; its partners `Tickets.StrippedInvoiceOnly`, `Tickets.StrippedDescriptionOnly` and `Tickets.DescriptionOverrideWins` state the outcomes |
| `Tickets.OaCandidate` | common/cufs.py:96-108 | with a leftmost OA match, the candidate is that match's key (hyphen kept), looked up in the manual table first, then the general one, and "" when both miss; the ZD pattern is not consulted |
| `Tickets.ZdCandidate` | common/cufs.py:109-110 | with no OA match anywhere, the candidate is exactly the digit run (four to eight digits) of the leftmost ZD match |
| `Tickets.NoPatternNoCandidate` | common/cufs.py:111-112 | a reference matching neither pattern gives the empty candidate |
| `Tickets.OaReference` | common/cufs.py:96-108 | for any four to eight digits, "OA" followed by the digits, or by a space and the digits, is looked up as "OA-" and the digits; "OA-" followed by the digits is looked up as "OA--" and the digits |
| `Tickets.LowerCaseReference` | common/cufs.py:96-99 | "oa " followed by four to eight digits is looked up as "OA-" and the digits, since the search runs on the upper-cased text |
| `Tickets.HyphenatedReference` | common/cufs.py:99 | "OA-" followed by four to eight digits is looked up as "OA--" and the digits, and so finds no ticket when neither table has that key |
| `Tickets.ManualExample` | common/cufs.py:50-59 | the manual table decides "OA 1128" (ticket 3743) whatever the general table says |
| `Tickets.NoOverrideUsesCandidate` | common/cufs.py:114-122 | without an override hit, the ticket is the pattern candidate after the typo table |
| `Tickets.InvoiceOverrideReplacesCandidate` | common/cufs.py:114-115 | an invoice hit replaces the pattern candidate when no description override follows |
| `Tickets.DescriptionOverrideWins` | common/cufs.py:117-118 | the description override runs last and wins over both the invoice override and the patterns |
| `Tickets.StrippedInvoiceOnly` | common/cufs.py:114-115 | an invoice that is in the table only once stripped raises a KeyError |
| `Tickets.StrippedDescriptionOnly` | common/cufs.py:117-118 | a reference text that is in the description table only once stripped raises a KeyError, whatever the invoice override gave |
| `Tickets.StrippedInvoiceExample` | common/cufs.py:114-115 | " INV1" passes the stripped test against a table keyed "INV1" and then fails the lookup, while "INV1" succeeds |
| `Patterns.MatchAt` | common/cufs.py:86-87 | a match at a position is a whole match of the pattern, with a greedy digit run that stops at eight digits only when more follow |
| `Patterns.MatchAtComplete` | common/cufs.py:86-87 | a match is reported at a position exactly when some stretch of the text starting there is a whole match of the pattern |
| `Patterns.NormalizeOa` | common/cufs.py:99 | the key made of an OA match; its partner `Patterns.OaKey` states its value for every match |
| `Patterns.NormalizeZd` | common/cufs.py:110 | the ticket number made of a ZD match; its partner `Patterns.ZdKey` states its value for every match |
| `Patterns.Search` | common/cufs.py:96-97 | the search finds the leftmost match position, reports the match there, and reports none only when no position matches |
| `Patterns.OaKey` | common/cufs.py:99 | an OA match normalises to "OA-" and its digits, keeping an extra hyphen when the match had one |
| `Patterns.ZdKey` | common/cufs.py:110 | a ZD match normalises to exactly its digits, whatever separator it had |
| `Payments.Classify` | common/cufs.py:124-127 | no transaction column means the no-transaction-field path (taken as APC); a missing funds column otherwise raises; any other classification needs both columns |
| `Payments.WrongFundsIgnoreCode` | common/cufs.py:126 | funds other than JUDB are rejected whatever the transaction code is |
| `Payments.QualifyingFundsByCode` | common/cufs.py:127-203 | with JUDB funds, EBDU is APC, EBDV and EBDW are other costs, and every other code is non-qualifying (each an if-and-only-if) |
| `Payments.MergeFields` | common/cufs.py:138-144 | a merge keeps the aggregate's columns; its partners `Payments.MergeRow`, `Payments.MergeKeepsHistory`, `Payments.ExemptTakesNewest` and `Payments.MergeAgreeingRow` state its values |
| `Payments.MergeRow` | common/cufs.py:138-144 | the field loop over the row's columns, each update reading the aggregate being updated, yields the field-wise merge |
| `Payments.MergeKeepsHistory` | common/cufs.py:139-142 | a merged field that is neither exempt nor pinned begins with the old value and ends with the new one; it is the two joined by ' %&% ' when they differ, and equals the new value exactly when they agree |
| `Payments.ExemptTakesNewest` | common/cufs.py:139-143 | a pay-date field takes the newest value and is never joined |
| `Payments.MergeAgreeingRow` | common/cufs.py:138-144 | merging a row that agrees with the aggregate on every column leaves the aggregate as it was |
| `Payments.FirstRecord` | common/cufs.py:242-250 | a first record is the row plus its total column, which holds the row's amount text itself (or "0" on the lenient path), as at lines 149-150 and 190-192 too; without an amount column a non-lenient first record raises |
| `Payments.MergePayment` | common/cufs.py:131-145 | a merge succeeds exactly when both amounts are present and numeric and the row's columns are all in the aggregate; it keeps the aggregate's columns; the total reads as old plus new; other fields are the field-wise merge |
| `Payments.TwoPaymentsExample` | common/cufs.py:131-150 | a first payment of "100.00" followed by one of "50.00" for the same ticket leaves the total "150.0" |
| `Payments.WithTotal` | common/cufs.py:137-145 | writing `str` of the new total into the total column keeps the columns, changes no other field, and reads back as that total |
| `Amounts.ParseAmount` | common/cufs.py:135-136 | `float(x.replace(',', ''))` in pence; its partners `Amounts.CommasIgnored` and `Amounts.ParseFormatRoundTrip` state that commas do not count and that a stored total reads back |
| `Amounts.PlainAmount` | common/cufs.py:135-136 | a text of digits, a point and two digits reads as the whole part times one hundred plus the two digits, in pence |
| `Amounts.ThousandsExample` | common/cufs.py:135-136 | "1,234.56" reads as 123456 pence |
| `Amounts.CommasIgnored` | common/cufs.py:135-136 | a comma anywhere in an amount text leaves the amount read unchanged, as removing every comma before parsing does |
| `Amounts.FormatAmount` | common/cufs.py:137 | `str` of a total; its partner `Amounts.ParseFormatRoundTrip` states that what it writes reads back as the same total |
| `Amounts.ParseFormatRoundTrip` | common/cufs.py:135-145 | a total written back with `str` reads back as the same total, so a running total survives being stored as text |
| `Amounts.FracDigits` | common/cufs.py:137 | the fractional digits written for a total are one or two digits whose value is the pence |
| `Text.Upper` | common/cufs.py:96-97 | `upper()` keeps the length and upper-cases each character on its own, the ASCII letters only; its partner `Patterns.UpperFixed` states that a text with no lower-case letter is left alone |
| `Text.ReplaceAll` | common/cufs.py:99 | `replace(pat, rep)`; its partners `Text.ReplaceAllAbsent`, `Text.ReplaceAllLeading` and `Patterns.ReplaceAllSplit` state that a text in which the pattern's first character never occurs is unchanged, that a leading occurrence is replaced and the rest scanned after it, and that replacing a one-character pattern distributes over concatenation |
| `Text.StripLeft` | common/cufs.py:110 | `lstrip(chars)` drops a prefix made only of the given characters and leaves a suffix that is empty or starts with another character; its partner `Text.StripLeftPrefix` states the result for such a prefix |
| `Text.StripRight` | common/cufs.py:110 | `rstrip(chars)` drops a suffix made only of the given characters and leaves a prefix that is empty or ends with another character |
| `Text.StripChars` | common/cufs.py:110 | `strip(chars)` leaves the input with a run of stripped characters removed from each end: the input is some such run, then the result, then another such run, and the result is empty or neither starts nor ends with a stripped character; its partner `Patterns.ZdStripped` states the result for a ZD match |
| `Text.Strip` | common/cufs.py:114-117 | `strip()` leaves the input with a run of whitespace removed from each end: the input is some whitespace, then the result, then more whitespace, and the result is empty or neither starts nor ends with whitespace; its partners `Tickets.StrippedInvoiceOnly` and `Tickets.StrippedInvoiceExample` show that membership is decided on the stripped key but the lookup uses the raw one |
| `Text.NatToDigits` | common/cufs.py:129 | `str(row_counter)` is a non-empty run of digits whose value is the counter, with no leading zero unless the counter is zero |
| `Text.NatToDigitsInjective` | common/cufs.py:129 | distinct row counters give distinct texts |
| `Reconcile.LogKey` | common/cufs.py:129 | a log key is the branch prefix followed by `str(row_counter)`; its partners `Reconcile.LogKeyInjective` and `Reconcile.LogKeysDistinct` state that keys never collide |
| `Reconcile.LogKeyInjective` | common/cufs.py:129 | two keys made of a prefix not ending in a digit and a row number are equal exactly when prefix and row number are |
| `Reconcile.LogKeysDistinct` | common/cufs.py:129-262 | across the six branch prefixes, no two rows and no two branches share a log key |
| `Reconcile.LogIncluded` | common/cufs.py:128-130 | an included-log entry never touches the master dictionary; its partner `Effects.IncludedLogged` states which included log takes the row under the key and that every other dictionary is unchanged |
| `Reconcile.LogRejected` | common/cufs.py:262-266 | a rejected-log entry never touches the master dictionary; its partner `Effects.RejectedLogged` states which rejected log takes the row under the key and that every other dictionary is unchanged |
| `Reconcile.Push` | common/cufs.py:154-159 | `zd_dict[ticket].update(record)`; its partner `Reconcile.PushUpdates` states what it changes and when it raises |
| `Reconcile.PushUpdates` | common/cufs.py:154-159 | the master update succeeds exactly when the ticket has an entry; it copies every field of the aggregate, keeps the entry's other fields, and changes no other ticket and no log |
| `Reconcile.Accumulate` | common/cufs.py:131-150 | the merge into an existing aggregate or the first record; its partner `Effects.AcceptedRecord` states the stored total and columns |
| `Reconcile.Settle` | common/cufs.py:124-258 | the part of the loop body after a ticket is found; its partners `Effects.RejectedRow`, `Effects.AcceptedRow`, `Effects.AcceptedRecord`, `Effects.OtherCostCode` and `Effects.FirstOtherCostCode` state what it writes in each branch |
| `Reconcile.Step` | common/cufs.py:94-269 | one iteration of the loop; its partners `Effects.UnmatchedRow`, `Effects.RejectedRow`, `Effects.IncludedBeforeMerge`, `Effects.AcceptedRow` and `Totals.StepConsistent` state what it writes in each branch |
| `Reconcile.RunFrom` | common/cufs.py:93-270 | the loop from a given row on, stopping at the first row that raises; its partner `Totals.ConsistentFrom` states the totals it keeps |
| `Reconcile.Run` | common/cufs.py:64-270 | a whole call from row zero with empty aggregates; its partners `Totals.RunTotals` and `Reconcile.Parser.PlugInPaymentData` state the totals it leaves and the loop that meets it |
| `Reconcile.Aggregate` | common/cufs.py:131-159 | storing an accepted row's aggregate changes only the master dictionary among the module-level dictionaries |
| `Reconcile.Ledger.Include` | common/cufs.py:128-130 | the included log of the funder is updated in place under the key, as the specification of a log entry says |
| `Reconcile.Ledger.Reject` | common/cufs.py:205-206 | the rejected log of the funder is updated in place under the key, as the specification of a log entry says |
| `Reconcile.Ledger.Update` | common/cufs.py:159 | `zd_dict[ticket].update(rec)` in place: done exactly when the ticket has an entry, and then the new state is the pushed one; nothing changes otherwise |
| `Reconcile.Parser.MergeStored` | common/cufs.py:131-145 | the imperative later-row merge computes exactly the merge specification, faults included |
| `Reconcile.Parser.Store` | common/cufs.py:131-159 | the merge or first record, then the master update, give the state and aggregates that the row specification gives |
| `Reconcile.Parser.SettleRow` | common/cufs.py:124-258 | the classified part of the loop body meets the row specification, branch by branch |
| `Reconcile.Parser.ProcessRow` | common/cufs.py:94-266 | one iteration of the loop body leaves the dictionaries, aggregates and outcome that the row specification gives |
| `Reconcile.Parser.PlugInPaymentData` | common/cufs.py:64-270 | the loop over the rows, counting from zero, leaves the dictionaries and outcome that the whole-run specification gives, stopping at the first row that raises |
| `Effects.Filing` | common/cufs.py:94-127 | a row is filed exactly when its ticket derivation succeeds with a ticket and its classification succeeds, and then with that ticket, row and disposition |
| `Effects.UnmatchedRow` | common/cufs.py:260-266 | a row without a ticket is not classified or aggregated; the master dictionary and the included logs are unchanged; it is logged as rejected under 'no_zd_match_<n>' for an RCUK or a COAF report |
| `Effects.RejectedRow` | common/cufs.py:203-217 | a non-JUDB row, or a JUDB row with an unknown code, is not aggregated; only the RCUK rejected log changes, and only for an RCUK report |
| `Effects.IncludedBeforeMerge` | common/cufs.py:128-130 | an accepted row is logged as included as it stood before the merge (for COAF only on the no-transaction-field path), even if the merge then raises; rejected logs are untouched |
| `Effects.AcceptedRow` | common/cufs.py:131-159 | an accepted row that does not raise stores a new aggregate for its ticket in its category only, leaves the other category alone, and updates that ticket's master entry with it |
| `Effects.AcceptedRecord` | common/cufs.py:131-150 | the stored aggregate's total reads as the old total plus the row's amount, or as the row's amount for a first record; it keeps the aggregate's columns, or takes the row's and the total |
| `Effects.OtherCostCode` | common/cufs.py:172-186 | a later other-cost payment stores the ticket's non-empty APC code joined with its own, and its own code otherwise |
| `Effects.FirstOtherCostCode` | common/cufs.py:187-201 | the first other-cost payment for a ticket stores the row's own code, "EBDV" or "EBDW", in the aggregate and in the ticket's master entry, replacing any APC code there |
| `Totals.StepConsistent` | common/cufs.py:94-270 | one row that does not raise keeps the totals invariant between the aggregates, the master dictionary and the sums of the rows so far |
| `Totals.ConsistentFrom` | common/cufs.py:93-270 | the loop from any row on keeps the totals invariant to the end of a run that goes through |
| `Totals.RunTotals` | common/cufs.py:64-270 | after a run that goes through, a ticket has an APC (other-cost) aggregate exactly when some row paid into it, and its master entry's APC (other-cost) total reads as the sum of those rows' amounts |

## Left out

- Reading the CSV file (`open`, `csv.DictReader`, file encodings). The input is a sequence of
  rows, each a map from column name to text.
- `CoafFieldsMapping`, `RcukFieldsMapping` and `extract_csv_header`. The column names are
  parameters (`Columns`).
- The debug files (`output_debug_info`, building the debug file names).
- Diagnostics: `logging.warning`, `print`, `pprint`, `plog`, and the warning about an
  overwritten master field on row 0. They change nothing the loop keeps.
- The module-level tables the loop reads are parameters (`Settings`): `oa_number_typos`,
  `invoice2zd_number`, `description2zd_number`, `zd_number_typos`, and the pay-date field
  names.
- Floating point. Amounts are exact pence. The parser accepts:
  - an optional sign;
  - digits;
  - at most two digits after a point;
  - commas anywhere, which are ignored.

  It refuses what Python's `float` would also accept: exponents, surrounding whitespace,
  `inf`, `nan`, more than two fractional digits, underscores between digits (`"1_000.50"`)
  and non-ASCII decimal digits. On such a text the model ends the run with `NotANumber`
  where the source carries on. Rounding in float addition and `str`
  of large or long totals are not modelled.
- `upper()` acts on the ASCII letters only. `strip()` removes Python's whitespace set as
  `str.isspace` defines it, including the non-ASCII spaces.
- Regular expressions in general. Only the two fixed patterns are modelled.
- A fault ends the run. The partial writes of the failing row's merge, made before the
  exception, are not modelled: the aggregates are left as they were. The local aggregates
  are discarded in the source anyway.
- Aliasing. The stored aggregate is the row object itself, but the included logs take
  copies and the master update copies values, so the aliasing cannot be observed. The
  rejected logs store the row, which is never changed afterwards.
- Totals.RunTotals: states the totals only for reports with no column named like either
  total column, and whose two total columns differ. Otherwise a row, or the other
  category's aggregate, can overwrite a total in the master entry.
- Totals.StepConsistent: requires the same two conditions on the report's columns as
  `Totals.RunTotals`, for the same reason.
- Totals.ConsistentFrom: requires the same two conditions on the report's columns as
  `Totals.RunTotals`, for the same reason.
- Effects.OtherCostCode: requires the transaction-code column to differ from the other-cost
  total column, because the total would overwrite it.
- Effects.FirstOtherCostCode: requires the transaction-code column to differ from the
  other-cost total column, for the same reason as `Effects.OtherCostCode`.

=== FILE: amounts.dfy ===
/**
 Payment amounts. The source turns an amount text into a number with
 `float(text.replace(',', ''))` and stores a running total back as `str(total)`.
 Here an amount is an exact integer number of minor units (pence); the parser accepts
 an optional sign, digits, and at most two fractional digits after a point, with commas
 anywhere in between ignored, and the formatter writes a total the way `str` writes such
 a float ("150.0", "150.5", "150.25").
 */
module Amounts {
  import opened Options
  import opened Text

  /**
   What has been read of an amount so far, left to right: a sign, the digits before the point
   (`whole`), whether the point has been seen, the digits after it (`frac`, `fracLen` of them)
   and the number of digits in all.
   */
  datatype Reading = Reading(signed: bool, negative: bool, whole: nat, point: bool, frac: nat, fracLen: nat, digits: nat)

  const Start := Reading(false, false, 0, false, 0, 0, 0)

  /**
   Reads `s` from position `i` on. A comma is skipped (the source removes every comma before
   parsing); a sign is accepted only before anything else, one point at most, and at most two
   digits after the point. None where the text is not such an amount.
   */
  function Read(s: string, i: nat, st: Reading): (r: Option<Reading>)
    requires i <= |s|
    ensures r.Some? ==> r.value.fracLen <= 2
    decreases |s| - i
  {
    if i == |s| then (if st.fracLen <= 2 then Some(st) else None)
    else
      var c := s[i];
      if c == ',' then Read(s, i + 1, st)
      else if (c == '-' || c == '+') && !st.signed && st.digits == 0 && !st.point then
        Read(s, i + 1, st.(signed := true, negative := c == '-'))
      else if c == '.' && !st.point then Read(s, i + 1, st.(point := true))
      else if IsDigit(c) && !st.point then
        Read(s, i + 1, st.(whole := st.whole * 10 + DigitValue(c), digits := st.digits + 1))
      else if IsDigit(c) && st.fracLen < 2 then
        Read(s, i + 1, st.(frac := st.frac * 10 + DigitValue(c), fracLen := st.fracLen + 1, digits := st.digits + 1))
      else None
  }

  /** The amount in pence of a complete reading: two fractional digits are pence, one is tenths. */
  function Pence(st: Reading): int
  {
    var unsigned := st.whole * 100 + (if st.fracLen == 1 then st.frac * 10 else st.frac);
    if st.negative then -unsigned else unsigned
  }

  /** `float(text.replace(',', ''))` in pence; None where Python raises ValueError. */
  function ParseAmount(s: string): Option<int>
  {
    match Read(s, 0, Start)
    case None => None
    case Some(st) => if st.digits == 0 then None else Some(Pence(st))
  }

  /** Reading depends only on what is left of the text. */
  lemma {:induction false} ReadShift(s: string, i: nat, u: string, j: nat, st: Reading)
    requires i <= |s| && j <= |u| && s[i..] == u[j..]
    ensures Read(s, i, st) == Read(u, j, st)
    decreases |s| - i
  {
    if i < |s| {
      assert s[i] == s[i..][0] && u[j] == u[j..][0];
      assert s[i + 1..] == s[i..][1..] && u[j + 1..] == u[j..][1..];
      var i', j' := i + 1, j + 1;
      forall next: Reading
        ensures Read(s, i', next) == Read(u, j', next)
      {
        ReadShift(s, i', u, j', next);
      }
    }
  }

  /** From any position before it, a comma inserted after `a` changes nothing that is read. */
  lemma {:induction false} CommaSkipped(a: string, b: string, s: string, u: string, i: nat, st: Reading)
    requires s == a + "," + b && u == a + b && i <= |a|
    ensures Read(s, i, st) == Read(u, i, st)
    decreases |a| - i
  {
    if i < |a| {
      assert s[i] == a[i] == u[i];
      var k := i + 1;
      forall next: Reading
        ensures Read(s, k, next) == Read(u, k, next)
      {
        CommaSkipped(a, b, s, u, k, next);
      }
    } else {
      assert s[i] == ',';
      assert s[i + 1..] == u[i..];
      ReadShift(s, i + 1, u, i, st);
    }
  }

  /** `float(text.replace(',', ''))`: a comma anywhere in an amount text leaves its value unchanged. */
  lemma CommasIgnored(a: string, b: string)
    ensures ParseAmount(a + "," + b) == ParseAmount(a + b)
  {
    CommaSkipped(a, b, a + "," + b, a + b, 0, Start);
  }

  /** A point and two digits that end the text add those two digits as pence. */
  lemma ReadCents(s: string, j: nat, st: Reading)
    requires !st.point && st.frac == 0 && st.fracLen == 0
    requires j + 3 == |s| && s[j] == '.' && IsDigit(s[j + 1]) && IsDigit(s[j + 2])
    ensures Read(s, j, st)
            == Some(st.(point := true, frac := DigitValue(s[j + 1]) * 10 + DigitValue(s[j + 2]), fracLen := 2, digits := st.digits + 2))
  {
    var st1 := st.(point := true);
    var st2 := st1.(frac := DigitValue(s[j + 1]), fracLen := 1, digits := st.digits + 1);
    var st3 := st2.(frac := DigitValue(s[j + 1]) * 10 + DigitValue(s[j + 2]), fracLen := 2, digits := st.digits + 2);
    assert Read(s, j, st) == Read(s, j + 1, st1);
    assert Read(s, j + 1, st1) == Read(s, j + 2, st2);
    assert Read(s, j + 2, st2) == Read(s, j + 3, st3);
  }

  /** The value of a two-digit text. */
  lemma TwoDigitsValue(f: string)
    requires |f| == 2 && AllDigits(f)
    ensures DigitsValue(f) == DigitValue(f[0]) * 10 + DigitValue(f[1])
  {
    var g := f[..1];
    assert f[..|f| - 1] == g && g[..|g| - 1] == [] && g[0] == f[0];
    assert DigitsValue(g) == DigitValue(f[0]);
  }

  /**
   An amount as reports write it, digits, a point and two digits ("100.00"), reads as the
   digits before the point in pounds and the two after it in pence.
   */
  lemma PlainAmount(w: string, f: string)
    requires |w| >= 1 && AllDigits(w) && |f| == 2 && AllDigits(f)
    ensures ParseAmount(w + "." + f) == Some(DigitsValue(w) * 100 + DigitsValue(f))
  {
    var s := w + "." + f;
    assert s[0..|w|] == w;
    ReadDigits(s, 0, Start, w);
    var st := Start.(whole := DigitsValue(w), digits := |w|);
    assert s[|w|] == '.' && s[|w| + 1] == f[0] && s[|w| + 2] == f[1];
    ReadCents(s, |w|, st);
    TwoDigitsValue(f);
  }

  /** "1,234.56" reads as 1234.56: the comma is dropped and the two fractional digits are pence. */
  lemma ThousandsExample(text: string)
    requires text == "1,234.56"
    ensures ParseAmount(text) == Some(123456)
  {
    assert text == "1" + "," + "234.56";
    CommasIgnored("1", "234.56");
    assert "1" + "234.56" == "1234" + "." + "56";
    PlainAmount("1234", "56");
    assert DigitsValue("1234") == 1234 by {
      assert "1234"[..3] == "123" && "123"[..2] == "12" && "12"[..1] == "1" && "1"[..0] == [];
    }
    assert DigitsValue("56") == 56 by {
      assert "56"[..1] == "5" && "5"[..0] == [];
    }
  }

  /** The fractional digits `str` writes: one digit when the second would be a trailing zero. */
  function FracDigits(f: nat): (r: string)
    requires f < 100
    ensures AllDigits(r) && 1 <= |r| <= 2
    ensures |r| == 1 ==> DigitValue(r[0]) * 10 == f
    ensures |r| == 2 ==> DigitValue(r[0]) * 10 + DigitValue(r[1]) == f
  {
    if f % 10 == 0 then [DigitChar(f / 10)] else [DigitChar(f / 10), DigitChar(f % 10)]
  }

  function FormatUnsigned(n: nat): string
  {
    NatToDigits(n / 100) + "." + FracDigits(n % 100)
  }

  /** `str(total)` for a total held in pence. */
  function FormatAmount(p: int): string
  {
    if p < 0 then "-" + FormatUnsigned(-p) else FormatUnsigned(p)
  }

  /** Reading a run of digits before any point adds their value to a reading that had no whole part yet. */
  lemma {:induction false} ReadDigits(s: string, i: nat, st: Reading, w: string)
    requires !st.point && st.whole == 0 && AllDigits(w)
    requires i + |w| <= |s| && s[i..i + |w|] == w
    ensures Read(s, i, st) == Read(s, i + |w|, st.(whole := DigitsValue(w), digits := st.digits + |w|))
    decreases |w|
  {
    if w != [] {
      var init := w[..|w| - 1];
      var j := i + |init|;
      assert s[i..j] == init by {
        assert s[i..j] == s[i..i + |w|][..|init|];
      }
      ReadDigits(s, i, st, init);
      assert s[j] == w[|init|];
      var mid := st.(whole := DigitsValue(init), digits := st.digits + |init|);
      assert Read(s, j, mid) == Read(s, j + 1, st.(whole := DigitsValue(w), digits := st.digits + |w|));
    }
  }

  /** Reading a point and the fractional digits `str` writes for `f` adds `f` pence. */
  lemma ReadFraction(s: string, j: nat, st: Reading, f: nat)
    requires f < 100 && !st.point && st.frac == 0 && st.fracLen == 0
    requires j <= |s| && s[j..] == "." + FracDigits(f)
    ensures var r := Read(s, j, st);
            && r.Some? && r.value.negative == st.negative && r.value.whole == st.whole && r.value.digits > st.digits
            && (if r.value.fracLen == 1 then r.value.frac * 10 else r.value.frac) == f
  {
    var frac := FracDigits(f);
    assert |s| == j + 1 + |frac|;
    assert s[j] == '.' by {
      assert s[j] == s[j..][0];
    }
    assert s[j + 1] == frac[0] by {
      assert s[j + 1] == s[j..][1];
    }
    var st2 := st.(point := true);
    var d0 := DigitValue(frac[0]);
    var st3 := st2.(frac := d0, fracLen := 1, digits := st2.digits + 1);
    assert Read(s, j, st) == Read(s, j + 1, st2);
    assert Read(s, j + 1, st2) == Read(s, j + 2, st3);
    if |frac| == 2 {
      assert s[j + 2] == frac[1] by {
        assert s[j + 2] == s[j..][2];
      }
      var st4 := st3.(frac := d0 * 10 + DigitValue(frac[1]), fracLen := 2, digits := st3.digits + 1);
      assert Read(s, j + 2, st3) == Read(s, j + 3, st4);
      assert Read(s, j + 3, st4) == Some(st4);
    } else {
      assert Read(s, j + 2, st3) == Some(st3);
    }
  }

  /** Reading `str` of an unsigned total gives that total in pence, with the sign read before it. */
  lemma UnsignedRead(s: string, i: nat, st: Reading, n: nat)
    requires !st.point && st.whole == 0 && st.frac == 0 && st.fracLen == 0
    requires i <= |s| && s[i..] == FormatUnsigned(n)
    ensures var r := Read(s, i, st);
            && r.Some? && r.value.negative == st.negative && r.value.digits > 0
            && r.value.whole * 100 + (if r.value.fracLen == 1 then r.value.frac * 10 else r.value.frac) == n
  {
    var whole := NatToDigits(n / 100);
    assert s[i..i + |whole|] == whole by {
      assert s[i..i + |whole|] == s[i..][..|whole|];
    }
    ReadDigits(s, i, st, whole);
    var j := i + |whole|;
    assert s[j..] == "." + FracDigits(n % 100) by {
      assert s[j..] == s[i..][|whole|..];
    }
    ReadFraction(s, j, st.(whole := n / 100, digits := st.digits + |whole|), n % 100);
    assert (n / 100) * 100 + n % 100 == n;
  }

  /**
   A total written back with `str` reads back as the same amount: the running total
   survives being stored as text between two payments.
   */
  lemma ParseFormatRoundTrip(p: int)
    ensures ParseAmount(FormatAmount(p)) == Some(p)
  {
    var s := FormatAmount(p);
    var n := if p < 0 then -p else p;
    if p < 0 {
      assert s[1..] == FormatUnsigned(n);
      assert s[0] == '-';
      var st := Start.(signed := true, negative := true);
      assert Read(s, 0, Start) == Read(s, 1, st);
      UnsignedRead(s, 1, st, n);
    } else {
      assert s[0..] == FormatUnsigned(n);
      UnsignedRead(s, 0, Start, n);
    }
  }
}

=== FILE: effects.dfy ===
/**
 What one iteration of the loop does, branch by branch: which dictionaries it writes, under
 which key, and what it leaves alone.
 */
module Effects {
  import opened Options
  import opened Amounts
  import opened Rows
  import opened Tickets
  import opened Payments
  import opened Reconcile

  /** How far a row gets: its ticket, its disposition and the row as fixed, when it is classified. */
  datatype Filed = Filed(ticket: string, disposition: Disposition, row: Row)

  function Filing(manual: map<string, string>, oa2zd: map<string, string>, report: Report, row: Row): (r: Option<Filed>)
    ensures r.Some? ==> DeriveTicket(row, report.cols, report.settings, manual, oa2zd) == Ok(Derived(r.value.row, Some(r.value.ticket)))
    ensures r.Some? ==> Classify(r.value.row, report.cols) == Ok(r.value.disposition)
    ensures r.None? ==> var d := DeriveTicket(row, report.cols, report.settings, manual, oa2zd);
                        d.Err? || d.value.ticket.None? || Classify(d.value.row, report.cols).Err?
  {
    match DeriveTicket(row, report.cols, report.settings, manual, oa2zd)
    case Err(_) => None
    case Ok(d) =>
      match d.ticket
      case None => None
      case Some(t) =>
        match Classify(d.row, report.cols)
        case Err(_) => None
        case Ok(disp) => Some(Filed(t, disp, d.row))
  }

  /** The rows that are aggregated. */
  predicate Accepted(d: Disposition)
  {
    d == Apc || d == OtherCost || d == NoTransactionField
  }

  /** The aggregates of the category a disposition feeds. */
  function SideOf(agg: Aggregates, d: Disposition): map<string, Row>
  {
    if d == OtherCost then agg.other else agg.apc
  }

  function TotalOf(cols: Columns, d: Disposition): string
  {
    if d == OtherCost then cols.otherTotal else cols.apcTotal
  }

  function IncludedPrefix(d: Disposition): string
  {
    if d == Apc then ApcPrefix else if d == OtherCost then OtherPrefix else NoTranPrefix
  }

  /** What a row adds to a total: its amount, or zero when it has no amount column. */
  function Contribution(row: Row, amount: string): Option<int>
  {
    if amount in row then ParseAmount(row[amount]) else Some(0)
  }

  /** Which log a rejected-log entry lands in; the other dictionaries are untouched. */
  lemma RejectedLogged(books: Books, funder: string, key: string, row: Row, coafLogged: bool)
    ensures var r := LogRejected(books, funder, key, row, coafLogged);
            && r.master == books.master && r.includedRcuk == books.includedRcuk && r.includedCoaf == books.includedCoaf
            && r.rejectedRcuk == (if funder == Rcuk then books.rejectedRcuk[key := row] else books.rejectedRcuk)
            && r.rejectedCoaf == (if funder == Coaf && coafLogged then books.rejectedCoaf[key := row] else books.rejectedCoaf)
  {
  }

  /** Which log an included-log entry lands in; the other dictionaries are untouched. */
  lemma IncludedLogged(books: Books, funder: string, key: string, row: Row, coafLogged: bool)
    ensures var r := LogIncluded(books, funder, key, row, coafLogged);
            && r.master == books.master && r.rejectedRcuk == books.rejectedRcuk && r.rejectedCoaf == books.rejectedCoaf
            && r.includedRcuk == (if funder == Rcuk then books.includedRcuk[key := row] else books.includedRcuk)
            && r.includedCoaf == (if funder == Coaf && coafLogged then books.includedCoaf[key := row] else books.includedCoaf)
  {
  }

  /**
   A row without a ticket number is neither classified nor aggregated: the master dictionary,
   the aggregates and the included logs are untouched, and the row is logged as rejected under
   'no_zd_match_<n>' for either funder.
   */
  lemma UnmatchedRow(manual: map<string, string>, oa2zd: map<string, string>, report: Report,
                     n: nat, row: Row, books: Books, agg: Aggregates, fixed: Row)
    requires DeriveTicket(row, report.cols, report.settings, manual, oa2zd) == Ok(Derived(fixed, None))
    ensures var s := Step(manual, oa2zd, report, n, row, books, agg);
            && s.outcome == Unmatched && s.agg == agg
            && s.books.master == books.master
            && s.books.includedRcuk == books.includedRcuk && s.books.includedCoaf == books.includedCoaf
            && s.books.rejectedRcuk == (if report.funder == Rcuk then books.rejectedRcuk[LogKey(UnmatchedPrefix, n) := fixed]
                                        else books.rejectedRcuk)
            && s.books.rejectedCoaf == (if report.funder == Coaf then books.rejectedCoaf[LogKey(UnmatchedPrefix, n) := fixed]
                                        else books.rejectedCoaf)
  {
    assert Step(manual, oa2zd, report, n, row, books, agg)
           == StepResult(LogRejected(books, report.funder, LogKey(UnmatchedPrefix, n), fixed, true), agg, Unmatched);
    RejectedLogged(books, report.funder, LogKey(UnmatchedPrefix, n), fixed, true);
  }

  /**
   A row with funds other than JUDB, or with JUDB funds and a code other than EBDU, EBDV and
   EBDW, is not aggregated: only the RCUK rejected log changes, and only for an RCUK report.
   */
  lemma RejectedRow(manual: map<string, string>, oa2zd: map<string, string>, report: Report,
                    n: nat, row: Row, books: Books, agg: Aggregates, f: Filed)
    requires Filing(manual, oa2zd, report, row) == Some(f)
    requires f.disposition == WrongFundSource || f.disposition == NonQualifying
    ensures var s := Step(manual, oa2zd, report, n, row, books, agg);
            var prefix := if f.disposition == WrongFundSource then WrongFundsPrefix else NonQualPrefix;
            && s.outcome == Classified(f.disposition) && s.agg == agg
            && s.books.master == books.master
            && s.books.includedRcuk == books.includedRcuk && s.books.includedCoaf == books.includedCoaf
            && s.books.rejectedCoaf == books.rejectedCoaf
            && s.books.rejectedRcuk == (if report.funder == Rcuk then books.rejectedRcuk[LogKey(prefix, n) := f.row]
                                        else books.rejectedRcuk)
  {
    var prefix := if f.disposition == WrongFundSource then WrongFundsPrefix else NonQualPrefix;
    StepClassified(manual, oa2zd, report, n, row, books, agg, f);
    assert Settle(report, n, f.row, f.ticket, books, agg)
           == StepResult(LogRejected(books, report.funder, LogKey(prefix, n), f.row, false), agg, Classified(f.disposition));
    RejectedLogged(books, report.funder, LogKey(prefix, n), f.row, false);
  }

  /**
   A row that is aggregated is first logged as included, as it stands before the merge (for an
   RCUK report; for a COAF report only on the no-transaction-field path), whether or not the
   merge then raises. Rejected logs are never written for it.
   */
  lemma IncludedBeforeMerge(manual: map<string, string>, oa2zd: map<string, string>, report: Report,
                            n: nat, row: Row, books: Books, agg: Aggregates, f: Filed)
    requires Filing(manual, oa2zd, report, row) == Some(f)
    requires Accepted(f.disposition)
    ensures var s := Step(manual, oa2zd, report, n, row, books, agg);
            var key := LogKey(IncludedPrefix(f.disposition), n);
            && s.books.rejectedRcuk == books.rejectedRcuk && s.books.rejectedCoaf == books.rejectedCoaf
            && s.books.includedRcuk == (if report.funder == Rcuk then books.includedRcuk[key := f.row] else books.includedRcuk)
            && s.books.includedCoaf == (if report.funder == Coaf && f.disposition == NoTransactionField
                                        then books.includedCoaf[key := f.row] else books.includedCoaf)
  {
    var s := Step(manual, oa2zd, report, n, row, books, agg);
    StepClassified(manual, oa2zd, report, n, row, books, agg, f);
    var key := LogKey(IncludedPrefix(f.disposition), n);
    var b := LogIncluded(books, report.funder, key, f.row, f.disposition == NoTransactionField);
    assert s.books.(master := b.master) == b by {
      SettleAccepted(report, n, f.row, f.ticket, books, agg, f.disposition);
    }
    IncludedLogged(books, report.funder, key, f.row, f.disposition == NoTransactionField);
  }

  /**
   The record `rec` stored for ticket `zd`, given the aggregates `aggs` of its category, its
   total column `total` and the amount column `amount`: it holds the total, which reads as the
   old total plus the row's amount when the ticket had an aggregate, and as the row's amount
   (zero when it has none) when it did not; it keeps the aggregate's columns, or takes the
   row's and the total.
   */
  predicate Absorbs(total: string, amount: string, zd: string, row: Row, aggs: map<string, Row>, rec: Row)
  {
    && total in rec
    && rec.Keys == (if zd in aggs then aggs[zd].Keys else row.Keys + {total})
    && (zd in aggs ==> && total in aggs[zd] && ParseAmount(aggs[zd][total]).Some?
                       && amount in row && ParseAmount(row[amount]).Some?
                       && ParseAmount(rec[total]) == Some(ParseAmount(aggs[zd][total]).value + ParseAmount(row[amount]).value))
    && (zd !in aggs ==> ParseAmount(rec[total]) == Contribution(row, amount))
  }

  /** An accumulation that succeeds gives a record that absorbs the row. */
  lemma Accumulated(aggs: map<string, Row>, ticket: string, row: Row, total: string, amount: string,
                    exempt: set<string>, pinned: map<string, string>, lenient: bool)
    requires Accumulate(aggs, ticket, row, total, amount, exempt, pinned, lenient).Ok?
    ensures Absorbs(total, amount, ticket, row, aggs, Accumulate(aggs, ticket, row, total, amount, exempt, pinned, lenient).value)
  {
  }

  /** An accepted row that does not raise: its record is pushed into the master entry and stored. */
  lemma Aggregated(books: Books, agg: Aggregates, ticket: string, toApc: bool, rec: Result<Row>, d: Disposition)
    requires !Aggregate(books, agg, ticket, toApc, rec, d).outcome.Faulted?
    ensures var s := Aggregate(books, agg, ticket, toApc, rec, d);
            && rec.Ok? && ticket in books.master && s.outcome == Classified(d)
            && s.books.master == books.master[ticket := books.master[ticket] + rec.value]
            && s.agg == if toApc then agg.(apc := agg.apc[ticket := rec.value]) else agg.(other := agg.other[ticket := rec.value])
  {
  }

  /** The pinned columns of a merge: the transaction code for other-cost rows, none otherwise. */
  function Pinned(agg: Aggregates, cols: Columns, ticket: string, row: Row, d: Disposition): map<string, string>
    requires d == OtherCost ==> cols.transactionCode in row
  {
    if d == OtherCost then CodePin(agg.apc, cols, ticket, row) else map[]
  }

  /** The classified part of the loop body for an accepted row: log entry, then accumulation. */
  lemma SettleAccepted(report: Report, n: nat, row: Row, ticket: string, books: Books, agg: Aggregates, d: Disposition)
    requires Classify(row, report.cols) == Ok(d) && Accepted(d)
    ensures var cols := report.cols;
            Settle(report, n, row, ticket, books, agg)
            == Aggregate(LogIncluded(books, report.funder, LogKey(IncludedPrefix(d), n), row, d == NoTransactionField),
                         agg, ticket, d != OtherCost,
                         Accumulate(SideOf(agg, d), ticket, row, TotalOf(cols, d), cols.amount, Exempt(report),
                                    Pinned(agg, cols, ticket, row, d), d == NoTransactionField), d)
  {
  }

  /** A row that gets as far as classification goes on to `Settle` with its fixed row and ticket. */
  lemma StepClassified(manual: map<string, string>, oa2zd: map<string, string>, report: Report,
                       n: nat, row: Row, books: Books, agg: Aggregates, f: Filed)
    requires Filing(manual, oa2zd, report, row) == Some(f)
    ensures Step(manual, oa2zd, report, n, row, books, agg) == Settle(report, n, f.row, f.ticket, books, agg)
  {
  }

  /**
   A row that is aggregated and does not raise stores a new aggregate `rec` for its ticket in its
   category, leaves the other category alone, and updates the master entry of its ticket with `rec`.
   */
  lemma AcceptedRow(report: Report, n: nat, row: Row, zd: string, books: Books, agg: Aggregates, d: Disposition)
    requires Classify(row, report.cols) == Ok(d) && Accepted(d)
    requires !Settle(report, n, row, zd, books, agg).outcome.Faulted?
    ensures var s := Settle(report, n, row, zd, books, agg);
            && s.outcome == Classified(d)
            && zd in books.master && zd in SideOf(s.agg, d)
            && var rec := SideOf(s.agg, d)[zd];
            && SideOf(s.agg, d) == SideOf(agg, d)[zd := rec]
            && (if d == OtherCost then s.agg.apc == agg.apc else s.agg.other == agg.other)
            && s.books.master == books.master[zd := books.master[zd] + rec]
  {
    var cols := report.cols;
    SettleAccepted(report, n, row, zd, books, agg, d);
    var acc := Accumulate(SideOf(agg, d), zd, row, TotalOf(cols, d), cols.amount, Exempt(report),
                          Pinned(agg, cols, zd, row, d), d == NoTransactionField);
    var b := LogIncluded(books, report.funder, LogKey(IncludedPrefix(d), n), row, d == NoTransactionField);
    assert Settle(report, n, row, zd, books, agg) == Aggregate(b, agg, zd, d != OtherCost, acc, d);
    Aggregated(b, agg, zd, d != OtherCost, acc, d);
  }

  /**
   The aggregate such a row stores: its total reads as the old total plus the row's amount when
   the ticket already had an aggregate, and as the row's amount (zero when it has none) when it
   did not; the aggregate keeps the columns it had, or takes the row's columns and the total.
   */
  lemma AcceptedRecord(report: Report, n: nat, row: Row, zd: string, books: Books, agg: Aggregates, d: Disposition)
    requires Classify(row, report.cols) == Ok(d) && Accepted(d)
    requires !Settle(report, n, row, zd, books, agg).outcome.Faulted?
    ensures var s := Settle(report, n, row, zd, books, agg);
            && zd in SideOf(s.agg, d)
            && Absorbs(TotalOf(report.cols, d), report.cols.amount, zd, row, SideOf(agg, d), SideOf(s.agg, d)[zd])
  {
    var cols := report.cols;
    SettleAccepted(report, n, row, zd, books, agg, d);
    var pinned := Pinned(agg, cols, zd, row, d);
    var acc := Accumulate(SideOf(agg, d), zd, row, TotalOf(cols, d), cols.amount, Exempt(report), pinned,
                          d == NoTransactionField);
    var b := LogIncluded(books, report.funder, LogKey(IncludedPrefix(d), n), row, d == NoTransactionField);
    assert Settle(report, n, row, zd, books, agg) == Aggregate(b, agg, zd, d != OtherCost, acc, d);
    Aggregated(b, agg, zd, d != OtherCost, acc, d);
    Accumulated(SideOf(agg, d), zd, row, TotalOf(cols, d), cols.amount, Exempt(report), pinned, d == NoTransactionField);
  }

  /**
   The first other-cost payment for a ticket is stored as the row itself, so the master entry of
   the ticket takes the row's transaction code, in place of the APC code an earlier APC payment
   put there: "EBDU" gives way to "EBDV" or "EBDW".
   */
  lemma FirstOtherCostCode(report: Report, n: nat, row: Row, zd: string, books: Books, agg: Aggregates)
    requires Classify(row, report.cols) == Ok(OtherCost)
    requires zd !in agg.other && report.cols.transactionCode != report.cols.otherTotal
    requires !Settle(report, n, row, zd, books, agg).outcome.Faulted?
    ensures var tc, s := report.cols.transactionCode, Settle(report, n, row, zd, books, agg);
            && tc in row && row[tc] in {"EBDV", "EBDW"} && zd in s.agg.other && zd in s.books.master
            && s.agg.other[zd][tc] == row[tc]
            && s.books.master[zd][tc] == row[tc]
  {
    var cols := report.cols;
    AcceptedRow(report, n, row, zd, books, agg, OtherCost);
    SettleAccepted(report, n, row, zd, books, agg, OtherCost);
    var acc := FirstRecord(row, cols.otherTotal, cols.amount, false);
    var b := LogIncluded(books, report.funder, LogKey(OtherPrefix, n), row, false);
    assert Settle(report, n, row, zd, books, agg) == Aggregate(b, agg, zd, false, acc, OtherCost);
    Aggregated(b, agg, zd, false, acc, OtherCost);
  }

  /**
   A later other-cost payment for a ticket stores, in the transaction-code column, the ticket's
   APC transaction code joined with its own when the ticket has an APC aggregate with a
   non-empty code, and its own code otherwise.
   */
  lemma OtherCostCode(report: Report, n: nat, row: Row, zd: string, books: Books, agg: Aggregates)
    requires Classify(row, report.cols) == Ok(OtherCost)
    requires zd in agg.other && report.cols.transactionCode != report.cols.otherTotal
    requires !Settle(report, n, row, zd, books, agg).outcome.Faulted?
    ensures var tc, s := report.cols.transactionCode, Settle(report, n, row, zd, books, agg);
            && zd in s.agg.other && tc in row && tc in s.agg.other[zd]
            && s.agg.other[zd][tc]
               == if zd in agg.apc && tc in agg.apc[zd] && agg.apc[zd][tc] != "" then agg.apc[zd][tc] + Separator + row[tc]
                  else row[tc]
  {
    var cols := report.cols;
    var tc := cols.transactionCode;
    AcceptedRow(report, n, row, zd, books, agg, OtherCost);
    SettleAccepted(report, n, row, zd, books, agg, OtherCost);
    var pinned := CodePin(agg.apc, cols, zd, row);
    var acc := MergePayment(agg.other[zd], row, cols.otherTotal, cols.amount, Exempt(report), pinned);
    var b := LogIncluded(books, report.funder, LogKey(OtherPrefix, n), row, false);
    assert Settle(report, n, row, zd, books, agg) == Aggregate(b, agg, zd, false, acc, OtherCost);
    Aggregated(b, agg, zd, false, acc, OtherCost);
    assert acc.value[tc] == MergeFields(agg.other[zd], row, Exempt(report), pinned)[tc];
  }
}

=== FILE: options.dfy ===
/** Option, shared by every module of the model. */
module Options {
  datatype Option<T> = None | Some(value: T)
}

=== FILE: patterns.dfy ===
/**
 The two fixed regular expressions of the reconciliation loop, `OA[ \-]?[0-9]{4,8}` and
 `ZD[ \-]?[0-9]{4,8}`, searched for with `re.search` in an upper-cased reference text,
 and the normalisations applied to what they match.
 */
module Patterns {
  import opened Options
  import opened Text

  predicate IsSep(c: char) { c == ' ' || c == '-' }

  /** Number of consecutive digits of `t` starting at `j`. */
  function DigitRun(t: string, j: nat): (r: nat)
    ensures j <= |t| ==> j + r <= |t|
    ensures forall k | j <= k < j + r :: k < |t| && IsDigit(t[k])
    ensures j + r < |t| ==> !IsDigit(t[j + r])
    decreases |t| - j
  {
    if j < |t| && IsDigit(t[j]) then 1 + DigitRun(t, j + 1) else 0
  }

  /** `[0-9]{4,8}` at `j`, greedy: as many digits as there are, up to eight, and at least four. */
  function DigitsAt(t: string, j: nat): Option<nat>
  {
    var run := DigitRun(t, j);
    if run < 4 then None else Some(if run > 8 then 8 else run)
  }

  /** The digits of a match: what follows the two letters and the optional separator. */
  function MatchDigits(m: string): string
    requires |m| >= 3
  {
    if IsSep(m[2]) then m[3..] else m[2..]
  }

  /** `m` is a whole match of `<lead>[ \-]?[0-9]{4,8}`. */
  predicate IsMatch(m: string, lead: string)
  {
    && |m| >= 6
    && m[..2] == lead
    && 4 <= |MatchDigits(m)| <= 8
    && AllDigits(MatchDigits(m))
  }

  /**
   The length of the match of `<lead>[ \-]?[0-9]{4,8}` that starts at `i`, if any. The
   optional separator is tried first and dropped only if the digits do not follow it;
   the digit run is the longest one allowed.
   */
  function MatchAt(t: string, i: nat, lead: string): (r: Option<nat>)
    requires |lead| == 2
    ensures r.Some? ==> i + r.value <= |t| && IsMatch(t[i..i + r.value], lead)
    ensures r.Some? && i + r.value < |t| && IsDigit(t[i + r.value]) ==> |MatchDigits(t[i..i + r.value])| == 8
  {
    if i + 2 <= |t| && t[i..i + 2] == lead then
      if i + 2 < |t| && IsSep(t[i + 2]) && DigitsAt(t, i + 3).Some? then
        var m := t[i..i + 3 + DigitsAt(t, i + 3).value];
        assert m[..2] == lead && MatchDigits(m) == t[i + 3..i + 3 + DigitsAt(t, i + 3).value];
        Some(3 + DigitsAt(t, i + 3).value)
      else if DigitsAt(t, i + 2).Some? then
        var m := t[i..i + 2 + DigitsAt(t, i + 2).value];
        assert m[..2] == lead && MatchDigits(m) == t[i + 2..i + 2 + DigitsAt(t, i + 2).value];
        Some(2 + DigitsAt(t, i + 2).value)
      else None
    else None
  }

  /**
   `re.search`: the leftmost position at or after `from` where the pattern matches, with the
   length of that match; None when it matches nowhere.
   */
  function Search(t: string, lead: string, from: nat): (r: Option<(nat, nat)>)
    requires |lead| == 2
    ensures r.Some? ==> from <= r.value.0 && MatchAt(t, r.value.0, lead) == Some(r.value.1)
    ensures r.Some? ==> forall j | from <= j < r.value.0 :: MatchAt(t, j, lead).None?
    ensures r.None? ==> forall j | from <= j :: MatchAt(t, j, lead).None?
    decreases |t| - from
  {
    if from >= |t| then None
    else
      match MatchAt(t, from, lead)
      case Some(len) => Some((from, len))
      case None => Search(t, lead, from + 1)
  }

  /** The search from `from` finds the first match at or after it. */
  lemma {:induction false} SearchFinds(t: string, lead: string, from: nat, i: nat, len: nat)
    requires |lead| == 2 && from <= i
    requires MatchAt(t, i, lead) == Some(len)
    requires forall j | from <= j < i :: MatchAt(t, j, lead).None?
    ensures Search(t, lead, from) == Some((i, len))
    decreases i - from
  {
    assert i < |t| by {
      assert i + len <= |t| && IsMatch(t[i..i + len], lead);
    }
    if from < i {
      assert MatchAt(t, from, lead).None?;
      assert Search(t, lead, from) == Search(t, lead, from + 1);
      SearchFinds(t, lead, from + 1, i, len);
    } else {
      assert Search(t, lead, from) == Some((from, len));
    }
  }

  /** The search from `from` finds nothing when the pattern matches at no position. */
  lemma {:induction false} SearchMisses(t: string, lead: string, from: nat)
    requires |lead| == 2
    requires forall j | from <= j :: MatchAt(t, j, lead).None?
    ensures Search(t, lead, from).None?
    decreases |t| - from
  {
    if from < |t| {
      assert MatchAt(t, from, lead).None?;
      SearchMisses(t, lead, from + 1);
    }
  }

  /** The text a search matched when its leftmost match is at `i`. */
  lemma FirstMatch(t: string, lead: string, i: nat, len: nat)
    requires |lead| == 2
    requires MatchAt(t, i, lead) == Some(len)
    requires forall j | 0 <= j < i :: MatchAt(t, j, lead).None?
    ensures Search(t, lead, 0).Some? && i + len <= |t| && Matched(t, lead) == t[i..i + len]
  {
    SearchFinds(t, lead, 0, i, len);
  }

  /** A run of exactly `n` digits at `j`, followed by a non-digit or the end, is counted as `n`. */
  lemma {:induction false} DigitRunExact(t: string, j: nat, n: nat)
    requires j + n <= |t|
    requires forall k | j <= k < j + n :: IsDigit(t[k])
    requires j + n == |t| || !IsDigit(t[j + n])
    ensures DigitRun(t, j) == n
    decreases n
  {
    if n > 0 {
      DigitRunExact(t, j + 1, n - 1);
    }
  }

  /** A run of at least `n` digits at `j` is counted as at least `n`. */
  lemma {:induction false} DigitRunLower(t: string, j: nat, n: nat)
    requires j + n <= |t| && AllDigits(t[j..j + n])
    ensures DigitRun(t, j) >= n
    decreases n
  {
    if n > 0 {
      assert IsDigit(t[j]) by {
        assert t[j] == t[j..j + n][0];
      }
      assert t[j + 1..j + n] == t[j..j + n][1..];
      DigitRunLower(t, j + 1, n - 1);
    }
  }

  /** Wherever a whole match of the pattern starts at `i` and ends at `e`, `MatchAt` reports a match at `i`. */
  lemma MatchFound(t: string, lead: string, i: nat, e: nat)
    requires |lead| == 2 && i <= e <= |t|
    ensures IsMatch(t[i..e], lead) ==> MatchAt(t, i, lead).Some?
  {
    var m := t[i..e];
    if IsMatch(m, lead) {
      assert t[i..i + 2] == lead by {
        assert t[i..i + 2] == m[..2];
      }
      assert t[i + 2] == m[2];
      if IsSep(m[2]) {
        assert t[i + 3..e] == MatchDigits(m);
        DigitRunLower(t, i + 3, e - i - 3);
      } else {
        assert t[i + 2..e] == MatchDigits(m);
        DigitRunLower(t, i + 2, e - i - 2);
      }
    }
  }

  /** `MatchAt` finds a match at `i` exactly when some stretch of the text from `i` on is a whole match. */
  lemma MatchAtComplete(t: string, lead: string, i: nat)
    requires |lead| == 2
    ensures MatchAt(t, i, lead).Some? <==> exists e | i <= e <= |t| :: IsMatch(t[i..e], lead)
  {
    forall e | i <= e <= |t|
      ensures IsMatch(t[i..e], lead) ==> MatchAt(t, i, lead).Some?
    {
      MatchFound(t, lead, i, e);
    }
    if MatchAt(t, i, lead).Some? {
      var e := i + MatchAt(t, i, lead).value;
      assert i <= e <= |t| && IsMatch(t[i..e], lead);
    }
  }

  /**
   A text that starts with the two letters, an optional separator and a maximal run of four to
   eight digits matches at position 0 over exactly that prefix.
   */
  lemma MatchAtStart(t: string, lead: string, withSep: bool, n: nat)
    requires |lead| == 2 && 4 <= n <= 8
    requires |t| >= 2 && t[..2] == lead
    requires withSep ==> |t| >= 3 && IsSep(t[2])
    requires var j := if withSep then 3 else 2;
             && j + n <= |t|
             && (forall k | j <= k < j + n :: IsDigit(t[k]))
             && (j + n == |t| || !IsDigit(t[j + n]))
    ensures MatchAt(t, 0, lead) == Some((if withSep then 3 else 2) + n)
  {
    var j := if withSep then 3 else 2;
    DigitRunExact(t, j, n);
    if !withSep {
      assert !IsSep(t[2]);
    }
  }

  /** The text a successful search matched. */
  function Matched(t: string, lead: string): (m: string)
    requires |lead| == 2
    requires Search(t, lead, 0).Some?
    ensures IsMatch(m, lead)
  {
    var (i, len) := Search(t, lead, 0).value;
    t[i..i + len]
  }

  /** `m.upper().replace("OA", "OA-").replace(" ", "")`, the key looked up for an OA match. */
  function NormalizeOa(m: string): string
  {
    ReplaceAll(ReplaceAll(Upper(m), "OA", "OA-"), " ", "")
  }

  /** `m.replace(" ", "-").strip('ZDzd -')`, the ticket number taken from a ZD match. */
  function NormalizeZd(m: string): string
  {
    StripChars(ReplaceAll(m, " ", "-"), {'Z', 'D', 'z', 'd', ' ', '-'})
  }

  /** Upper-casing leaves a text with no lower-case ASCII letter alone. */
  lemma UpperFixed(s: string)
    requires forall i | 0 <= i < |s| :: !('a' <= s[i] <= 'z')
    ensures Upper(s) == s
  {
  }

  /** The parts of a match: its two letters, its separator (possibly none) and its digits. */
  lemma MatchParts(m: string, lead: string)
    requires IsMatch(m, lead)
    ensures m == lead + (if IsSep(m[2]) then [m[2]] else []) + MatchDigits(m)
  {
  }

  lemma OaReplaced(sep: string, d: string)
    requires sep == "" || sep == " " || sep == "-"
    requires AllDigits(d)
    ensures ReplaceAll("OA" + sep + d, "OA", "OA-") == "OA-" + sep + d
  {
    assert "OA" + sep + d == "OA" + (sep + d);
    ReplaceAllLeading("OA", "OA-", sep + d);
    ReplaceAllAbsent(sep + d, "OA", "OA-");
  }

  lemma SpacesRemoved(sep: string, d: string)
    requires sep == "" || sep == " " || sep == "-"
    requires AllDigits(d)
    ensures ReplaceAll("OA-" + sep + d, " ", "") == "OA-" + (if sep == "-" then "-" else "") + d
  {
    assert "OA-" + sep + d == "OA-" + (sep + d);
    ReplaceAllSplit("OA-", sep + d, " ", "");
    ReplaceAllAbsent("OA-", " ", "");
    if sep == " " {
      assert ReplaceAll(sep + d, " ", "") == d by {
        ReplaceAllLeading(" ", "", d);
        ReplaceAllAbsent(d, " ", "");
      }
    } else {
      assert ReplaceAll(sep + d, " ", "") == sep + d by {
        ReplaceAllAbsent(sep + d, " ", "");
      }
    }
  }

  /**
   An OA match becomes "OA-" and its digits, whatever separator it had, except that a hyphen
   is kept as well: "OA1234" and "OA 1234" give "OA-1234", "OA-1234" gives "OA--1234".
   */
  lemma OaKey(m: string)
    requires IsMatch(m, "OA")
    ensures NormalizeOa(m) == "OA-" + (if m[2] == '-' then "-" else "") + MatchDigits(m)
  {
    var sep := if IsSep(m[2]) then [m[2]] else [];
    MatchParts(m, "OA");
    UpperFixed(m);
    OaReplaced(sep, MatchDigits(m));
    SpacesRemoved(sep, MatchDigits(m));
  }

  /** `replace` of a single character distributes over concatenation. */
  lemma {:induction false} ReplaceAllSplit(a: string, b: string, pat: string, rep: string)
    requires |pat| == 1
    ensures ReplaceAll(a + b, pat, rep) == ReplaceAll(a, pat, rep) + ReplaceAll(b, pat, rep)
    decreases |a|
  {
    if a != [] {
      assert (a + b)[1..] == a[1..] + b;
      assert (a + b)[..1] == a[..1];
      ReplaceAllSplit(a[1..], b, pat, rep);
    } else {
      assert a + b == b;
    }
  }

  lemma ZdHyphenated(sep: string, d: string)
    requires sep == "" || sep == " " || sep == "-"
    requires AllDigits(d)
    ensures ReplaceAll("ZD" + sep + d, " ", "-") == "ZD" + (if sep == "" then "" else "-") + d
  {
    ReplaceAllSplit("ZD" + sep, d, " ", "-");
    ReplaceAllAbsent(d, " ", "-");
    ReplaceAllSplit("ZD", sep, " ", "-");
    ReplaceAllAbsent("ZD", " ", "-");
    if sep == " " {
      assert ReplaceAll(sep, " ", "-") == "-";
    } else {
      ReplaceAllAbsent(sep, " ", "-");
    }
  }

  lemma ZdStripped(sep: string, d: string)
    requires sep == "" || sep == "-"
    requires AllDigits(d) && |d| > 0
    ensures StripChars("ZD" + sep + d, {'Z', 'D', 'z', 'd', ' ', '-'}) == d
  {
    var cs := {'Z', 'D', 'z', 'd', ' ', '-'};
    var p := "ZD" + sep;
    assert StripLeft(p + d, cs) == d by {
      assert forall i | 0 <= i < |p| :: p[i] in cs;
      StripLeftPrefix(p, d, cs);
    }
    assert "ZD" + sep + d == p + d;
    assert StripRight(d, cs) == d by {
      assert d[|d| - 1] !in cs;
    }
  }

  /** A ZD match yields exactly its digit run, whatever separator it had. */
  lemma ZdKey(m: string)
    requires IsMatch(m, "ZD")
    ensures NormalizeZd(m) == MatchDigits(m)
  {
    var sep := if IsSep(m[2]) then [m[2]] else [];
    MatchParts(m, "ZD");
    ZdHyphenated(sep, MatchDigits(m));
    ZdStripped(if sep == "" then "" else "-", MatchDigits(m));
  }
}

=== FILE: payments.dfy ===
/**
 What happens to a payment row once it has a ticket number: its classification by
 transaction-code column, source-of-funds code and transaction code, and its merge into
 the per-ticket aggregate of its category.
 */
module Payments {
  import opened Options
  import opened Text
  import opened Amounts
  import opened Rows

  /** The branches of the loop for a row that has a ticket number. */
  datatype Disposition =
    | Apc                 // JUDB funds, transaction code EBDU
    | OtherCost           // JUDB funds, transaction code EBDV or EBDW
    | NonQualifying       // JUDB funds, any other transaction code
    | WrongFundSource     // funds other than JUDB, whatever the code
    | NoTransactionField  // the report has no transaction-code column: taken as APC

  const QualifyingFunds := "JUDB"
  const ApcCode := "EBDU"
  const OtherCodes := {"EBDV", "EBDW"}

  /**
   The classification of a row. Reading the source-of-funds column comes first and raises a
   KeyError when the column is missing, whatever the transaction code.
   */
  function Classify(row: Row, cols: Columns): (r: Result<Disposition>)
    ensures r == Ok(NoTransactionField) <==> cols.transactionCode !in row
    ensures r.Err? <==> cols.transactionCode in row && cols.sourceOfFunds !in row
    ensures r.Ok? && r.value != NoTransactionField ==> cols.transactionCode in row && cols.sourceOfFunds in row
  {
    if cols.transactionCode !in row then Ok(NoTransactionField)
    else if cols.sourceOfFunds !in row then Err(MissingKey)
    else if row[cols.sourceOfFunds] != QualifyingFunds then Ok(WrongFundSource)
    else if row[cols.transactionCode] == ApcCode then Ok(Apc)
    else if row[cols.transactionCode] in OtherCodes then Ok(OtherCost)
    else Ok(NonQualifying)
  }

  /** Rows with funds other than JUDB are rejected whatever their transaction code says. */
  lemma WrongFundsIgnoreCode(row: Row, cols: Columns, code: string)
    requires cols.transactionCode in row && cols.sourceOfFunds in row
    requires cols.transactionCode != cols.sourceOfFunds
    requires row[cols.sourceOfFunds] != QualifyingFunds
    ensures Classify(row, cols) == Ok(WrongFundSource)
    ensures Classify(row[cols.transactionCode := code], cols) == Ok(WrongFundSource)
  {
  }

  /** With JUDB funds, the transaction code alone decides between the three dispositions. */
  lemma QualifyingFundsByCode(row: Row, cols: Columns)
    requires cols.transactionCode in row && cols.sourceOfFunds in row
    requires row[cols.sourceOfFunds] == QualifyingFunds
    ensures Classify(row, cols) == Ok(Apc) <==> row[cols.transactionCode] == "EBDU"
    ensures Classify(row, cols) == Ok(OtherCost) <==> row[cols.transactionCode] in {"EBDV", "EBDW"}
    ensures Classify(row, cols) == Ok(NonQualifying) <==> row[cols.transactionCode] !in {"EBDU", "EBDV", "EBDW"}
  {
  }

  /** The separator put between two differing values of one field. */
  const Separator := " %&% "

  /**
   The value a field takes when a later row is merged: a pinned value if the field has one,
   the old and new values joined by the separator if they differ and the field is not exempt,
   the new value otherwise.
   */
  function MergedValue(k: string, prev: string, next: string, exempt: set<string>, pinned: map<string, string>): string
  {
    if k in pinned then pinned[k]
    else if prev != next && k !in exempt then prev + Separator + next
    else next
  }

  /** The stored aggregate after the field loop over a later row's columns. */
  function MergeFields(existing: Row, row: Row, exempt: set<string>, pinned: map<string, string>): (r: Row)
    requires row.Keys <= existing.Keys
    ensures r.Keys == existing.Keys
  {
    map k | k in existing :: if k in row then MergedValue(k, existing[k], row[k], exempt, pinned) else existing[k]
  }

  /** An aggregate with its total column overwritten by `str` of a new total, which reads back as that total. */
  function WithTotal(agg: Row, total: string, p: int): (r: Row)
    requires total in agg
    ensures r.Keys == agg.Keys && ParseAmount(r[total]) == Some(p)
    ensures forall k | k in agg && k != total :: r[k] == agg[k]
  {
    ParseFormatRoundTrip(p);
    agg[total := FormatAmount(p)]
  }

  /**
   The loop `for k in row.keys(): ... existing[k] = n_value`, one column at a time, reading the
   stored value of each column from the aggregate being updated.
   */
  method MergeRow(existing: Row, row: Row, exempt: set<string>, pinned: map<string, string>) returns (merged: Row)
    requires row.Keys <= existing.Keys
    ensures merged == MergeFields(existing, row, exempt, pinned)
  {
    merged := existing;
    var pending := row.Keys;
    while pending != {}
      invariant pending <= row.Keys
      invariant merged.Keys == existing.Keys
      invariant forall k | k in merged ::
        merged[k] == if k in row && k !in pending then MergedValue(k, existing[k], row[k], exempt, pinned)
                     else existing[k]
      decreases pending
    {
      var k :| k in pending;
      merged := merged[k := MergedValue(k, merged[k], row[k], exempt, pinned)];
      pending := pending - {k};
    }
  }

  /**
   Nothing is lost by a merge: for every column of the new row that is neither exempt nor
   pinned, the stored value still begins with the old value and ends with the new one: it is
   the two joined by the separator when they differ, and exactly the new value when they agree.
   */
  lemma MergeKeepsHistory(existing: Row, row: Row, exempt: set<string>, pinned: map<string, string>, k: string)
    requires row.Keys <= existing.Keys
    requires k in row && k !in exempt && k !in pinned
    ensures var v := MergeFields(existing, row, exempt, pinned)[k];
            && existing[k] <= v
            && |row[k]| <= |v| && v[|v| - |row[k]|..] == row[k]
            && (existing[k] == row[k] <==> v == row[k])
            && (existing[k] != row[k] ==> v == existing[k] + Separator + row[k])
  {
    var v := MergeFields(existing, row, exempt, pinned)[k];
    if existing[k] != row[k] {
      assert v == existing[k] + Separator + row[k];
      assert v[|v| - |row[k]|..] == row[k];
      assert |v| > |row[k]|;
    }
  }

  /** Pay-date columns (exempt) take the newest value and are never joined. */
  lemma ExemptTakesNewest(existing: Row, row: Row, exempt: set<string>, pinned: map<string, string>, k: string)
    requires row.Keys <= existing.Keys
    requires k in row && k in exempt && k !in pinned
    ensures MergeFields(existing, row, exempt, pinned)[k] == row[k]
  {
  }

  /** Merging a row that agrees with the stored aggregate on every column leaves it as it was. */
  lemma MergeAgreeingRow(existing: Row, row: Row, exempt: set<string>)
    requires row.Keys <= existing.Keys
    requires forall k | k in row :: row[k] == existing[k]
    ensures MergeFields(existing, row, exempt, map[]) == existing
  {
  }

  /**
   The transaction code an other-cost merge stores: the ticket's APC code joined with the new
   code when the ticket has an APC aggregate with a non-empty code, the new code otherwise.
   */
  function TranCodeHistory(apc: map<string, Row>, ticket: string, tranField: string, code: string): string
  {
    if ticket in apc && tranField in apc[ticket] && apc[ticket][tranField] != "" then
      apc[ticket][tranField] + Separator + code
    else code
  }

  /** The running total stored in a first-seen aggregate: the amount text itself, or "0" when allowed. */
  function FirstRecord(row: Row, total: string, amountField: string, lenient: bool): (r: Result<Row>)
    ensures r.Err? <==> amountField !in row && !lenient
    ensures r.Ok? ==> r.value.Keys == row.Keys + {total}
    ensures r.Ok? ==> forall k | k in row && k != total :: r.value[k] == row[k]
    ensures r.Ok? ==> r.value[total] == if amountField in row then row[amountField] else "0"
    ensures r.Ok? ==> ParseAmount(r.value[total]) == if amountField in row then ParseAmount(row[amountField]) else Some(0)
  {
    if amountField in row then Ok(row[total := row[amountField]])
    else if lenient then
      assert ParseAmount("0") == Some(0) by {
        assert Read("0", 0, Start) == Read("0", 1, Start.(digits := 1));
      }
      Ok(row[total := "0"])
    else Err(MissingKey)
  }

  /**
   Two payments of "100.00" and "50.00" for one ticket: the first is stored with its amount text
   as the total, and merging the second leaves the total "150.0".
   */
  lemma TwoPaymentsExample(first: Row, second: Row, total: string, amountField: string,
                           exempt: set<string>, pinned: map<string, string>)
    requires amountField in first && first[amountField] == "100.00"
    requires amountField in second && second[amountField] == "50.00"
    requires second.Keys <= first.Keys
    ensures var rec := FirstRecord(first, total, amountField, false);
            && rec.Ok?
            && var merged := MergePayment(rec.value, second, total, amountField, exempt, pinned);
            && merged.Ok? && merged.value[total] == "150.0"
  {
    var rec := FirstRecord(first, total, amountField, false).value;
    assert rec[total] == "100.00";
    assert ParseAmount("100.00") == Some(10000) by {
      HundredPounds();
    }
    assert ParseAmount("50.00") == Some(5000) by {
      FiftyPounds();
    }
    assert MergePayment(rec, second, total, amountField, exempt, pinned)
           == Ok(WithTotal(MergeFields(rec, second, exempt, pinned), total, 15000));
    assert FormatAmount(15000) == "150.0" by {
      OneHundredFifty();
    }
  }

  /** "100.00" reads as 10000 pence. */
  lemma HundredPounds()
    ensures ParseAmount("100.00") == Some(10000)
  {
    assert "100.00" == "100" + "." + "00";
    assert DigitsValue("100") == 100 by {
      assert "100"[..2] == "10" && "10"[..1] == "1" && "1"[..0] == [];
    }
    TwoDigitsValue("00");
    PlainAmount("100", "00");
  }

  /** "50.00" reads as 5000 pence. */
  lemma FiftyPounds()
    ensures ParseAmount("50.00") == Some(5000)
  {
    assert "50.00" == "50" + "." + "00";
    assert DigitsValue("50") == 50 by {
      assert "50"[..1] == "5" && "5"[..0] == [];
    }
    TwoDigitsValue("00");
    PlainAmount("50", "00");
  }

  /** 15000 pence is written back as Python writes the float 150.0. */
  lemma OneHundredFifty()
    ensures FormatAmount(15000) == "150.0"
  {
    assert NatToDigits(150) == "150" by {
      assert NatToDigits(15) == "15" by {
        assert NatToDigits(1) == "1";
      }
    }
    assert FracDigits(0) == "0";
  }

  /**
   A later row merged into the stored aggregate of its ticket: the total becomes the old total
   plus the new amount, both read with commas stripped, and every other column follows the
   field rule. The source raises when the old total or the new amount is missing or is not a
   number, or when the row has a column the aggregate lacks.
   */
  function MergePayment(existing: Row, row: Row, total: string, amountField: string,
                        exempt: set<string>, pinned: map<string, string>): (r: Result<Row>)
    ensures r.Ok? <==> && total in existing && ParseAmount(existing[total]).Some?
                       && amountField in row && ParseAmount(row[amountField]).Some?
                       && row.Keys <= existing.Keys
    ensures r.Err? ==> r.fault in {MissingKey, NotANumber}
    ensures r.Ok? ==> r.value.Keys == existing.Keys
    ensures r.Ok? ==> ParseAmount(r.value[total])
                      == Some(ParseAmount(existing[total]).value + ParseAmount(row[amountField]).value)
    ensures r.Ok? ==> forall k | k in existing && k != total :: r.value[k] == MergeFields(existing, row, exempt, pinned)[k]
  {
    if total !in existing then Err(MissingKey)
    else
      match ParseAmount(existing[total])
      case None => Err(NotANumber)
      case Some(p) =>
        if amountField !in row then Err(MissingKey)
        else
          match ParseAmount(row[amountField])
          case None => Err(NotANumber)
          case Some(n) =>
            if !(row.Keys <= existing.Keys) then Err(MissingKey)
            else
              Ok(WithTotal(MergeFields(existing, row, exempt, pinned), total, p + n))
  }
}

=== FILE: reconcile.dfy ===
/**
 The reconciliation loop `Parser.plug_in_payment_data`: every row of a payment report is
 given a ticket number, classified, logged in the included or rejected dictionary of its
 funder under a key built from its zero-based row number, and, when accepted, merged into
 the per-ticket aggregate of its category, which is then copied into the ticket's entry of
 the master ticket dictionary `zd_dict`.

 `Step` is the specification of one row and `RunFrom` of the whole loop; the class `Parser`
 carries the imperative code that is proved to meet them, and `Ledger` holds the module-level
 dictionaries the loop writes.
 */
module Reconcile {
  import opened Options
  import opened Text
  import opened Amounts
  import opened Rows
  import opened Tickets
  import opened Payments

  const Rcuk := "RCUK"
  const Coaf := "COAF"

  /** The prefixes of the log keys, one per branch of the loop. */
  const ApcPrefix := "EBDU_"
  const OtherPrefix := "EBDV-W_"
  const NoTranPrefix := "no_transaction_field_"
  const NonQualPrefix := "not_EBD*_payment_"
  const WrongFundsPrefix := "not_JUDB_payment_"
  const UnmatchedPrefix := "no_zd_match_"

  /** `prefix + str(row_counter)`. */
  function LogKey(prefix: string, n: nat): string
  {
    prefix + NatToDigits(n)
  }

  /** A key whose prefix ends, in a non-digit, past the end of a shorter prefix is a different key. */
  lemma LongerPrefixDiffers(p: string, q: string, m: nat, n: nat)
    requires |p| < |q| && !IsDigit(q[|q| - 1])
    ensures LogKey(p, m) != LogKey(q, n)
  {
    var a := NatToDigits(m);
    if |q| - 1 < |LogKey(p, m)| {
      assert LogKey(p, m)[|q| - 1] == a[|q| - 1 - |p|];
    }
    assert LogKey(q, n)[|q| - 1] == q[|q| - 1];
  }

  /**
   Two log keys are equal only when they come from the same prefix and the same row number,
   as long as neither prefix ends in a digit.
   */
  lemma LogKeyInjective(p: string, q: string, m: nat, n: nat)
    requires |p| > 0 && |q| > 0 && !IsDigit(p[|p| - 1]) && !IsDigit(q[|q| - 1])
    ensures LogKey(p, m) == LogKey(q, n) <==> p == q && m == n
  {
    if |p| < |q| {
      LongerPrefixDiffers(p, q, m, n);
    } else if |q| < |p| {
      LongerPrefixDiffers(q, p, n, m);
    } else {
      assert LogKey(p, m)[..|p|] == p && LogKey(p, m)[|p|..] == NatToDigits(m);
      assert LogKey(q, n)[..|q|] == q && LogKey(q, n)[|q|..] == NatToDigits(n);
      if NatToDigits(m) == NatToDigits(n) {
        NatToDigitsInjective(m, n);
      }
    }
  }

  /** The six prefixes of the loop: no two rows, and no two branches, share a log key. */
  lemma LogKeysDistinct(p: string, q: string, m: nat, n: nat)
    requires p in {ApcPrefix, OtherPrefix, NoTranPrefix, NonQualPrefix, WrongFundsPrefix, UnmatchedPrefix}
    requires q in {ApcPrefix, OtherPrefix, NoTranPrefix, NonQualPrefix, WrongFundsPrefix, UnmatchedPrefix}
    ensures LogKey(p, m) == LogKey(q, n) <==> p == q && m == n
  {
    assert p[|p| - 1] == '_' && q[|q| - 1] == '_';
    LogKeyInjective(p, q, m, n);
  }

  /**
   The module-level dictionaries: the master ticket dictionary `zd_dict` and the four logs
   `included_rcuk_payment_dict`, `rejected_rcuk_payment_dict`, `included_coaf_payment_dict`
   and `rejected_coaf_payment_dict`.
   */
  datatype Books = Books(
    master: map<string, Row>,
    includedRcuk: map<string, Row>,
    rejectedRcuk: map<string, Row>,
    includedCoaf: map<string, Row>,
    rejectedCoaf: map<string, Row>)

  /** The two local dictionaries `payments_dict_apc` and `payments_dict_other`, keyed by ticket. */
  datatype Aggregates = Aggregates(apc: map<string, Row>, other: map<string, Row>)

  /** What one call is told about its report: column names, module-level tables, and the funder. */
  datatype Report = Report(cols: Columns, settings: Settings, funder: string)

  datatype RowOutcome = Unmatched | Classified(disposition: Disposition) | Faulted(fault: Fault)

  datatype StepResult = StepResult(books: Books, agg: Aggregates, outcome: RowOutcome)

  /** A run either goes through every row or stops at the first row that raises. */
  datatype RunOutcome = Completed(agg: Aggregates) | Aborted(row: nat, fault: Fault)

  /** The pay-date columns, which a merge never joins. */
  function Exempt(report: Report): set<string>
  {
    {report.settings.rcukPaydate, report.settings.coafPaydate}
  }

  /** An included-log entry: RCUK reports always log, COAF reports only where `coafLogged`. */
  function LogIncluded(books: Books, funder: string, key: string, row: Row, coafLogged: bool): (r: Books)
    ensures r.master == books.master
  {
    if funder == Rcuk then books.(includedRcuk := books.includedRcuk[key := row])
    else if funder == Coaf && coafLogged then books.(includedCoaf := books.includedCoaf[key := row])
    else books
  }

  /** A rejected-log entry: RCUK reports always log, COAF reports only where `coafLogged`. */
  function LogRejected(books: Books, funder: string, key: string, row: Row, coafLogged: bool): (r: Books)
    ensures r.master == books.master
  {
    if funder == Rcuk then books.(rejectedRcuk := books.rejectedRcuk[key := row])
    else if funder == Coaf && coafLogged then books.(rejectedCoaf := books.rejectedCoaf[key := row])
    else books
  }

  /** The stored aggregate of a ticket after an accepted row: a merge if it has one, a first record if not. */
  function Accumulate(aggs: map<string, Row>, ticket: string, row: Row, total: string, amount: string,
                      exempt: set<string>, pinned: map<string, string>, lenient: bool): Result<Row>
  {
    if ticket in aggs then MergePayment(aggs[ticket], row, total, amount, exempt, pinned)
    else FirstRecord(row, total, amount, lenient)
  }

  /** `zd_dict[ticket].update(record)`, which raises when the ticket has no entry. */
  function Push(books: Books, ticket: string, rec: Row): Result<Books>
  {
    if ticket in books.master then Ok(books.(master := books.master[ticket := books.master[ticket] + rec]))
    else Err(UnknownTicket(ticket))
  }

  /**
   `update` of the master entry: it succeeds exactly when the ticket has an entry, every field of
   the record is then copied into that entry, the entry's other fields are kept, and no other
   ticket's entry and no log changes.
   */
  lemma PushUpdates(books: Books, ticket: string, rec: Row)
    ensures Push(books, ticket, rec).Ok? <==> ticket in books.master
    ensures Push(books, ticket, rec).Ok? ==>
              var b := Push(books, ticket, rec).value;
              && b.(master := books.master) == books
              && b.master.Keys == books.master.Keys
              && b.master[ticket].Keys == books.master[ticket].Keys + rec.Keys
              && (forall k | k in rec :: b.master[ticket][k] == rec[k])
              && (forall k | k in books.master[ticket] && k !in rec :: b.master[ticket][k] == books.master[ticket][k])
              && (forall t | t in books.master && t != ticket :: b.master[t] == books.master[t])
  {
  }

  /**
   An accepted row after its log entry: the new aggregate of its category is stored and pushed
   to the master dictionary. A fault leaves the aggregates as they were and keeps the log entry.
   */
  function Aggregate(books: Books, agg: Aggregates, ticket: string, toApc: bool, rec: Result<Row>, d: Disposition): (r: StepResult)
    ensures r.books.(master := books.master) == books
  {
    match rec
    case Err(f) => StepResult(books, agg, Faulted(f))
    case Ok(r) =>
      match Push(books, ticket, r)
      case Err(f) => StepResult(books, agg, Faulted(f))
      case Ok(b) =>
        var agg' := if toApc then agg.(apc := agg.apc[ticket := r]) else agg.(other := agg.other[ticket := r]);
        StepResult(b, agg', Classified(d))
  }

  /**
   The transaction-code column of an other-cost merge takes the ticket's APC code history
   rather than the other-cost aggregate's own value.
   */
  function CodePin(apc: map<string, Row>, cols: Columns, ticket: string, row: Row): map<string, string>
    requires cols.transactionCode in row
  {
    map[cols.transactionCode := TranCodeHistory(apc, ticket, cols.transactionCode, row[cols.transactionCode])]
  }

  /** A row that has a ticket number, from its classification on. */
  function Settle(report: Report, n: nat, row: Row, ticket: string, books: Books, agg: Aggregates): StepResult
  {
    var cols := report.cols;
    match Classify(row, cols)
    case Err(f) => StepResult(books, agg, Faulted(f))
    case Ok(d) =>
      match d
      case WrongFundSource =>
        StepResult(LogRejected(books, report.funder, LogKey(WrongFundsPrefix, n), row, false), agg, Classified(d))
      case NonQualifying =>
        StepResult(LogRejected(books, report.funder, LogKey(NonQualPrefix, n), row, false), agg, Classified(d))
      case Apc =>
        var b := LogIncluded(books, report.funder, LogKey(ApcPrefix, n), row, false);
        Aggregate(b, agg, ticket, true,
                  Accumulate(agg.apc, ticket, row, cols.apcTotal, cols.amount, Exempt(report), map[], false), d)
      case OtherCost =>
        var b := LogIncluded(books, report.funder, LogKey(OtherPrefix, n), row, false);
        Aggregate(b, agg, ticket, false,
                  Accumulate(agg.other, ticket, row, cols.otherTotal, cols.amount, Exempt(report),
                             CodePin(agg.apc, cols, ticket, row), false), d)
      case NoTransactionField =>
        var b := LogIncluded(books, report.funder, LogKey(NoTranPrefix, n), row, true);
        Aggregate(b, agg, ticket, true,
                  Accumulate(agg.apc, ticket, row, cols.apcTotal, cols.amount, Exempt(report), map[], true), d)
  }

  /** One iteration of the loop, for the row numbered `n`. */
  function Step(manual: map<string, string>, oa2zd: map<string, string>, report: Report,
                n: nat, row: Row, books: Books, agg: Aggregates): StepResult
  {
    match DeriveTicket(row, report.cols, report.settings, manual, oa2zd)
    case Err(f) => StepResult(books, agg, Faulted(f))
    case Ok(d) =>
      match d.ticket
      case None => StepResult(LogRejected(books, report.funder, LogKey(UnmatchedPrefix, n), d.row, true), agg, Unmatched)
      case Some(ticket) => Settle(report, n, d.row, ticket, books, agg)
  }

  /** The loop from row `n` on. */
  function RunFrom(manual: map<string, string>, oa2zd: map<string, string>, report: Report,
                   rows: seq<Row>, n: nat, books: Books, agg: Aggregates): (Books, RunOutcome)
    decreases |rows| - n
  {
    if n >= |rows| then (books, Completed(agg))
    else
      var s := Step(manual, oa2zd, report, n, rows[n], books, agg);
      if s.outcome.Faulted? then (s.books, Aborted(n, s.outcome.fault))
      else RunFrom(manual, oa2zd, report, rows, n + 1, s.books, s.agg)
  }

  const NoAggregates := Aggregates(map[], map[])

  /** A whole call: every row from the first, with empty aggregates. */
  function Run(manual: map<string, string>, oa2zd: map<string, string>, report: Report,
               rows: seq<Row>, books: Books): (Books, RunOutcome)
  {
    RunFrom(manual, oa2zd, report, rows, 0, books, NoAggregates)
  }

  /** The module-level dictionaries the loop writes, updated in place. */
  class Ledger {
    var master: map<string, Row>
    var includedRcuk: map<string, Row>
    var rejectedRcuk: map<string, Row>
    var includedCoaf: map<string, Row>
    var rejectedCoaf: map<string, Row>

    function State(): Books
      reads this
    {
      Books(master, includedRcuk, rejectedRcuk, includedCoaf, rejectedCoaf)
    }

    constructor(books: Books)
      ensures State() == books
    {
      master := books.master;
      includedRcuk := books.includedRcuk;
      rejectedRcuk := books.rejectedRcuk;
      includedCoaf := books.includedCoaf;
      rejectedCoaf := books.rejectedCoaf;
    }

    method Include(funder: string, key: string, row: Row, coafLogged: bool)
      modifies this
      ensures State() == LogIncluded(old(State()), funder, key, row, coafLogged)
    {
      if funder == Rcuk {
        includedRcuk := includedRcuk[key := row];
      } else if funder == Coaf && coafLogged {
        includedCoaf := includedCoaf[key := row];
      }
    }

    method Reject(funder: string, key: string, row: Row, coafLogged: bool)
      modifies this
      ensures State() == LogRejected(old(State()), funder, key, row, coafLogged)
    {
      if funder == Rcuk {
        rejectedRcuk := rejectedRcuk[key := row];
      } else if funder == Coaf && coafLogged {
        rejectedCoaf := rejectedCoaf[key := row];
      }
    }

    /** `zd_dict[ticket].update(rec)`; `found` is false, and nothing changes, where the source raises. */
    method Update(ticket: string, rec: Row) returns (found: bool)
      modifies this
      ensures found == (ticket in old(master))
      ensures found ==> Push(old(State()), ticket, rec) == Ok(State())
      ensures !found ==> State() == old(State())
    {
      found := ticket in master;
      if found {
        master := master[ticket := master[ticket] + rec];
      }
    }
  }

  class Parser {
    const manualOa2Zd: map<string, string>
    const oa2Zd: map<string, string>

    /** The manual OA-to-ZD table is fixed; the general one is given. */
    constructor(oa2zd: map<string, string>)
      ensures manualOa2Zd == ManualOa2Zd && oa2Zd == oa2zd
    {
      manualOa2Zd := ManualOa2Zd;
      oa2Zd := oa2zd;
    }

    /**
     The later-row merge as the source does it: the two amounts are read, then the columns of
     the row are merged one by one, then the total is written.
     */
    static method MergeStored(existing: Row, row: Row, total: string, amount: string,
                              exempt: set<string>, pinned: map<string, string>) returns (r: Result<Row>)
      ensures r == MergePayment(existing, row, total, amount, exempt, pinned)
    {
      if total !in existing {
        return Err(MissingKey);
      }
      var p := Amounts.ParseAmount(existing[total]);
      if p.None? {
        return Err(NotANumber);
      }
      if amount !in row {
        return Err(MissingKey);
      }
      var a := Amounts.ParseAmount(row[amount]);
      if a.None? {
        return Err(NotANumber);
      }
      if !(row.Keys <= existing.Keys) {
        return Err(MissingKey);
      }
      var merged := MergeRow(existing, row, exempt, pinned);
      r := Ok(WithTotal(merged, total, p.value + a.value));
      assert r == MergePayment(existing, row, total, amount, exempt, pinned) by {
        assert MergePayment(existing, row, total, amount, exempt, pinned)
               == Ok(WithTotal(MergeFields(existing, row, exempt, pinned), total, p.value + a.value));
      }
    }

    /** The merge or first record of an accepted row, then the push into the master dictionary. */
    static method Store(ledger: Ledger, agg: Aggregates, ticket: string, toApc: bool, row: Row, total: string,
                        amount: string, exempt: set<string>, pinned: map<string, string>, lenient: bool,
                        d: Disposition)
      returns (agg': Aggregates, outcome: RowOutcome)
      modifies ledger
      ensures var aggs := if toApc then agg.apc else agg.other;
              var s := Aggregate(old(ledger.State()), agg, ticket, toApc,
                                 Accumulate(aggs, ticket, row, total, amount, exempt, pinned, lenient), d);
              ledger.State() == s.books && agg' == s.agg && outcome == s.outcome
    {
      var aggs := if toApc then agg.apc else agg.other;
      var rec: Result<Row>;
      if ticket in aggs {
        rec := MergeStored(aggs[ticket], row, total, amount, exempt, pinned);
      } else {
        rec := FirstRecord(row, total, amount, lenient);
      }
      assert rec == Accumulate(aggs, ticket, row, total, amount, exempt, pinned, lenient);
      if rec.Err? {
        return agg, Faulted(rec.fault);
      }
      var found := ledger.Update(ticket, rec.value);
      if !found {
        return agg, Faulted(UnknownTicket(ticket));
      }
      if toApc {
        agg' := agg.(apc := agg.apc[ticket := rec.value]);
      } else {
        agg' := agg.(other := agg.other[ticket := rec.value]);
      }
      outcome := Classified(d);
    }

    /** The loop body for a row that has a ticket number, from its classification on. */
    static method SettleRow(ledger: Ledger, report: Report, n: nat, row: Row, ticket: string, agg: Aggregates)
      returns (agg': Aggregates, outcome: RowOutcome)
      modifies ledger
      ensures var s := Settle(report, n, row, ticket, old(ledger.State()), agg);
              ledger.State() == s.books && agg' == s.agg && outcome == s.outcome
    {
      var cols := report.cols;
      var d := Classify(row, cols);
      if d.Err? {
        return agg, Faulted(d.fault);
      }
      match d.value {
        case WrongFundSource =>
          ledger.Reject(report.funder, LogKey(WrongFundsPrefix, n), row, false);
          return agg, Classified(d.value);
        case NonQualifying =>
          ledger.Reject(report.funder, LogKey(NonQualPrefix, n), row, false);
          return agg, Classified(d.value);
        case Apc =>
          ledger.Include(report.funder, LogKey(ApcPrefix, n), row, false);
          agg', outcome := Store(ledger, agg, ticket, true, row, cols.apcTotal, cols.amount, Exempt(report),
                                 map[], false, d.value);
        case OtherCost =>
          ledger.Include(report.funder, LogKey(OtherPrefix, n), row, false);
          agg', outcome := Store(ledger, agg, ticket, false, row, cols.otherTotal, cols.amount, Exempt(report),
                                 CodePin(agg.apc, cols, ticket, row), false, d.value);
        case NoTransactionField =>
          ledger.Include(report.funder, LogKey(NoTranPrefix, n), row, true);
          agg', outcome := Store(ledger, agg, ticket, true, row, cols.apcTotal, cols.amount, Exempt(report),
                                 map[], true, d.value);
      }
    }

    /** One iteration of the loop body. */
    method ProcessRow(ledger: Ledger, report: Report, n: nat, row: Row, agg: Aggregates)
      returns (agg': Aggregates, outcome: RowOutcome)
      modifies ledger
      ensures var s := Step(manualOa2Zd, oa2Zd, report, n, row, old(ledger.State()), agg);
              ledger.State() == s.books && agg' == s.agg && outcome == s.outcome
    {
      var derived := DeriveTicket(row, report.cols, report.settings, manualOa2Zd, oa2Zd);
      if derived.Err? {
        return agg, Faulted(derived.fault);
      }
      match derived.value.ticket {
        case None =>
          ledger.Reject(report.funder, LogKey(UnmatchedPrefix, n), derived.value.row, true);
          return agg, Unmatched;
        case Some(ticket) =>
          agg', outcome := SettleRow(ledger, report, n, derived.value.row, ticket, agg);
      }
    }

    /**
     `plug_in_payment_data` over the rows of a report, numbered from zero. The aggregates are
     returned when the run goes through; the source raises at the first faulty row, leaving
     the dictionaries as the rows before it (and the faulty row's log entry) made them.
     */
    method PlugInPaymentData(ledger: Ledger, report: Report, rows: seq<Row>) returns (outcome: RunOutcome)
      modifies ledger
      ensures (ledger.State(), outcome) == Run(manualOa2Zd, oa2Zd, report, rows, old(ledger.State()))
    {
      var agg := NoAggregates;
      var rowCounter := 0;
      while rowCounter < |rows|
        invariant rowCounter <= |rows|
        invariant RunFrom(manualOa2Zd, oa2Zd, report, rows, rowCounter, ledger.State(), agg)
                  == Run(manualOa2Zd, oa2Zd, report, rows, old(ledger.State()))
        decreases |rows| - rowCounter
      {
        var next, o := ProcessRow(ledger, report, rowCounter, rows[rowCounter], agg);
        if o.Faulted? {
          return Aborted(rowCounter, o.fault);
        }
        agg := next;
        rowCounter := rowCounter + 1;
      }
      outcome := Completed(agg);
    }
  }
}

=== FILE: rows.dfy ===
/**
 Rows, column names, the module-level tables the loop reads, and what goes wrong.
 A payment row is a mapping from column name to text, as `csv.DictReader` yields it;
 a stored per-ticket aggregate has the same shape.
 */
module Rows {
  type Row = map<string, string>

  /**
   The Python exceptions that escape `plug_in_payment_data` and end the run:
   a `KeyError` on a row, a stored aggregate or an override table (MissingKey), a
   `ValueError` from `float` (NotANumber), and a `KeyError` on `zd_dict` (UnknownTicket).
   */
  datatype Fault = MissingKey | NotANumber | UnknownTicket(ticket: string)

  datatype Result<T> = Ok(value: T) | Err(fault: Fault)

  /** The column-name parameters of `plug_in_payment_data`. */
  datatype Columns = Columns(
    oaNumber: string,        // oa_number_field: free text carrying the OA or ZD reference
    invoice: string,         // invoice_field
    amount: string,          // amount_field
    transactionCode: string, // transaction_code_field
    sourceOfFunds: string,   // source_funds_code_field
    apcTotal: string,        // output_apc_field: where the APC total is written
    otherTotal: string)      // output_pagecolour_field: where the other-cost total is written

  /** The module-level names the loop reads but does not define. */
  datatype Settings = Settings(
    oaNumberTypos: map<string, string>,       // raw reference text -> corrected text
    invoiceToTicket: map<string, string>,     // invoice number -> ticket id
    descriptionToTicket: map<string, string>, // reference text -> ticket id
    ticketTypos: map<string, string>,         // ticket id -> corrected ticket id
    rcukPaydate: string,                      // pay-date column of RCUK reports
    coafPaydate: string)                      // pay-date column of COAF reports
}

=== FILE: text.dfy ===
/**
 The few pieces of Python's `str` behaviour that the reconciliation loop relies on:
 ASCII digits, `str(n)` for a row counter, `upper()`, `replace(pat, rep)`, `strip()` and
 `strip(chars)`. Strings are sequences of characters.
 */
module Text {

  predicate IsDigit(c: char) { '0' <= c <= '9' }

  predicate AllDigits(s: string) { forall i | 0 <= i < |s| :: IsDigit(s[i]) }

  function DigitChar(d: nat): (c: char)
    requires d < 10
    ensures IsDigit(c) && c as int - '0' as int == d
  {
    ('0' as int + d) as char
  }

  function DigitValue(c: char): nat
    requires IsDigit(c)
  {
    c as int - '0' as int
  }

  /** The value of a run of decimal digits, most significant first (empty run: 0). */
  function DigitsValue(s: string): nat
    requires AllDigits(s)
    decreases |s|
  {
    if s == [] then 0 else DigitsValue(s[..|s| - 1]) * 10 + DigitValue(s[|s| - 1])
  }

  /** Python's `str(n)` for a non-negative integer. */
  function NatToDigits(n: nat): (r: string)
    ensures |r| >= 1 && AllDigits(r)
    ensures DigitsValue(r) == n
    ensures r[0] == '0' ==> n == 0
    decreases n
  {
    if n < 10 then [DigitChar(n)]
    else
      var s := NatToDigits(n / 10) + [DigitChar(n % 10)];
      assert s[..|s| - 1] == NatToDigits(n / 10);
      s
  }

  /** `str(n)` is injective: distinct row counters give distinct texts. */
  lemma NatToDigitsInjective(m: nat, n: nat)
    requires NatToDigits(m) == NatToDigits(n)
    ensures m == n
  {
  }

  function UpperChar(c: char): char
  {
    if 'a' <= c <= 'z' then (c as int - 32) as char else c
  }

  /** `s.upper()`, restricted to the ASCII letters. */
  function Upper(s: string): (r: string)
    ensures |r| == |s|
    ensures forall i | 0 <= i < |s| :: r[i] == UpperChar(s[i])
  {
    if s == [] then [] else [UpperChar(s[0])] + Upper(s[1..])
  }

  /** `s.replace(pat, rep)`: every non-overlapping occurrence of `pat`, scanning left to right. */
  function ReplaceAll(s: string, pat: string, rep: string): string
    requires |pat| > 0
    decreases |s|
  {
    if |s| < |pat| then s
    else if s[..|pat|] == pat then rep + ReplaceAll(s[|pat|..], pat, rep)
    else [s[0]] + ReplaceAll(s[1..], pat, rep)
  }

  /** A text in which the first character of `pat` never occurs is left alone by `replace`. */
  lemma {:induction false} ReplaceAllAbsent(s: string, pat: string, rep: string)
    requires |pat| > 0
    requires forall i | 0 <= i < |s| :: s[i] != pat[0]
    ensures ReplaceAll(s, pat, rep) == s
    decreases |s|
  {
    if |s| >= |pat| {
      assert s[..|pat|][0] == s[0] != pat[0];
      ReplaceAllAbsent(s[1..], pat, rep);
    }
  }

  /** `replace` of a text that starts with `pat` replaces that occurrence and goes on after it. */
  lemma ReplaceAllLeading(pat: string, rep: string, rest: string)
    requires |pat| > 0
    ensures ReplaceAll(pat + rest, pat, rep) == rep + ReplaceAll(rest, pat, rep)
  {
    assert (pat + rest)[..|pat|] == pat;
    assert (pat + rest)[|pat|..] == rest;
  }

  /** Every character of `s` is one of `cs`. */
  predicate AllIn(s: string, cs: set<char>)
  {
    forall i | 0 <= i < |s| :: s[i] in cs
  }

  /** `s.lstrip(chars)`: the longest suffix of `s` that does not start with a character of `cs`. */
  function StripLeft(s: string, cs: set<char>): (r: string)
    ensures |r| <= |s| && r == s[|s| - |r|..]
    ensures r == [] || r[0] !in cs
    ensures AllIn(s[..|s| - |r|], cs)
    decreases |s|
  {
    if s != [] && s[0] in cs then
      var r := StripLeft(s[1..], cs);
      assert s[..|s| - |r|] == [s[0]] + s[1..][..|s| - 1 - |r|];
      r
    else s
  }

  /** Stripping from the left removes a prefix made of stripped characters and stops at the first other one. */
  lemma {:induction false} StripLeftPrefix(p: string, s: string, cs: set<char>)
    requires forall i | 0 <= i < |p| :: p[i] in cs
    requires s == [] || s[0] !in cs
    ensures StripLeft(p + s, cs) == s
    decreases |p|
  {
    if p != [] {
      assert (p + s)[1..] == p[1..] + s;
      StripLeftPrefix(p[1..], s, cs);
    } else {
      assert p + s == s;
    }
  }

  /** `s.rstrip(chars)`: the longest prefix of `s` that does not end with a character of `cs`. */
  function StripRight(s: string, cs: set<char>): (r: string)
    ensures |r| <= |s| && r == s[..|r|]
    ensures r == [] || r[|r| - 1] !in cs
    ensures AllIn(s[|r|..], cs)
    decreases |s|
  {
    if s != [] && s[|s| - 1] in cs then
      var r := StripRight(s[..|s| - 1], cs);
      assert s[|r|..] == s[..|s| - 1][|r|..] + [s[|s| - 1]];
      r
    else s
  }

  /** A text is its three slices at two cut points, in order. */
  lemma Split3(s: string, i: nat, j: nat)
    requires i <= j <= |s|
    ensures s == s[..i] + s[i..j] + s[j..]
  {
    assert s == s[..j] + s[j..];
    assert s[..j] == s[..i] + s[i..j];
  }

  /**
   A text `l` left after dropping a run of stripped characters from the front of `s`, cut down to
   `r` by dropping another run from its back, lies between two such runs in `s`.
   */
  lemma Between(s: string, l: string, r: string, cs: set<char>)
    requires |l| <= |s| && l == s[|s| - |l|..] && AllIn(s[..|s| - |l|], cs)
    requires |r| <= |l| && r == l[..|r|] && AllIn(l[|r|..], cs)
    ensures exists p, q :: s == p + r + q && AllIn(p, cs) && AllIn(q, cs)
  {
    var i := |s| - |l|;
    var j := i + |r|;
    assert r == s[i..j];
    assert l[|r|..] == s[j..];
    Split3(s, i, j);
    assert s == s[..i] + r + s[j..] && AllIn(s[..i], cs) && AllIn(s[j..], cs);
  }

  /**
   `s.strip(chars)`: drop characters of `cs` from both ends. The result is what lies between a
   prefix and a suffix made only of stripped characters, and it neither starts nor ends with one.
   */
  function StripChars(s: string, cs: set<char>): (r: string)
    ensures r == [] || (r[0] !in cs && r[|r| - 1] !in cs)
    ensures exists p, q :: s == p + r + q && AllIn(p, cs) && AllIn(q, cs)
  {
    var l := StripLeft(s, cs);
    var r := StripRight(l, cs);
    Between(s, l, r, cs);
    assert r == [] || r[0] == l[0];
    r
  }

  /** The characters for which Python's `str.isspace()` holds. */
  const Whitespace: set<char> :=
    {'\t', '\n', 11 as char, 12 as char, '\r', 28 as char, 29 as char, 30 as char, 31 as char, ' ',
     0x85 as char, 0xA0 as char, 0x1680 as char,
     0x2000 as char, 0x2001 as char, 0x2002 as char, 0x2003 as char, 0x2004 as char, 0x2005 as char,
     0x2006 as char, 0x2007 as char, 0x2008 as char, 0x2009 as char, 0x200A as char,
     0x2028 as char, 0x2029 as char, 0x202F as char, 0x205F as char, 0x3000 as char}

  /** `s.strip()` with no argument. */
  function Strip(s: string): (r: string)
    ensures r == [] || (r[0] !in Whitespace && r[|r| - 1] !in Whitespace)
    ensures exists p, q :: s == p + r + q && AllIn(p, Whitespace) && AllIn(q, Whitespace)
  {
    StripChars(s, Whitespace)
  }
}

=== FILE: tickets.dfy ===
/**
 Deriving a ticket (ZD) number for one payment row: typo correction of the reference text,
 the OA pattern resolved through the manual and then the general OA-to-ZD table, the ZD
 pattern as fallback, then the invoice and description override tables, then the
 ticket-number typo table.
 */
module Tickets {
  import opened Options
  import opened Text
  import opened Patterns
  import opened Rows

  /** The manual OA-to-ZD table set up by the parser's constructor; it wins over the general table. */
  const ManualOa2Zd: map<string, string> := map[
    "OA-1128" := "3743",
    "OA-1515" := "4323",
    "OA-13907" := "83033",
    "OA-10518" := "36495",
    "OA-13111" := "76842",
    "OA-14062" := "86232",
    "OA-13919" := "83197",
    "OA-14269" := "89212"]

  /** An OA key resolved through the manual table, then the general one; "" when both miss. */
  function LookupOa(key: string, manual: map<string, string>, oa2zd: map<string, string>): string
  {
    if key in manual then manual[key] else if key in oa2zd then oa2zd[key] else ""
  }

  /** The ticket number found in a reference text by the two patterns alone. */
  function Candidate(desc: string, manual: map<string, string>, oa2zd: map<string, string>): string
  {
    var t := Upper(desc);
    if Search(t, "OA", 0).Some? then LookupOa(NormalizeOa(Matched(t, "OA")), manual, oa2zd)
    else if Search(t, "ZD", 0).Some? then NormalizeZd(Matched(t, "ZD"))
    else ""
  }

  /**
   `if key.strip() in table: current = table[key]`: the test strips the key, the lookup
   does not, so a key that only matches once stripped raises a KeyError.
   */
  function Override(table: map<string, string>, key: string, current: string): Result<string>
  {
    if Strip(key) in table then
      if key in table then Ok(table[key]) else Err(MissingKey)
    else Ok(current)
  }

  /** The row after the reference-text typo correction, which the source applies to the row itself. */
  function FixReference(row: Row, cols: Columns, settings: Settings): (r: Row)
    requires cols.oaNumber in row
    ensures r.Keys == row.Keys
    ensures forall k | k in row && k != cols.oaNumber :: r[k] == row[k]
    ensures row[cols.oaNumber] in settings.oaNumberTypos ==> r[cols.oaNumber] == settings.oaNumberTypos[row[cols.oaNumber]]
    ensures row[cols.oaNumber] !in settings.oaNumberTypos ==> r == row
  {
    var desc := row[cols.oaNumber];
    if desc in settings.oaNumberTypos then row[cols.oaNumber := settings.oaNumberTypos[desc]] else row
  }

  /** The row as the rest of the loop sees it, and its ticket number (None: no ticket found). */
  datatype Derived = Derived(row: Row, ticket: Option<string>)

  /** The id-derivation chain of one row. */
  function DeriveTicket(row: Row, cols: Columns, settings: Settings,
                        manual: map<string, string>, oa2zd: map<string, string>): (r: Result<Derived>)
    ensures r.Ok? ==> cols.oaNumber in row && r.value.row == FixReference(row, cols, settings)
    ensures r.Err? ==> r.fault == MissingKey
    ensures cols.oaNumber !in row || cols.invoice !in row ==> r == Err(MissingKey)
  {
    if cols.oaNumber !in row then Err(MissingKey)
    else
      var fixed := FixReference(row, cols, settings);
      var desc := fixed[cols.oaNumber];
      if cols.invoice !in fixed then Err(MissingKey)
      else
        match Override(settings.invoiceToTicket, fixed[cols.invoice], Candidate(desc, manual, oa2zd))
        case Err(f) => Err(f)
        case Ok(c1) =>
          match Override(settings.descriptionToTicket, desc, c1)
          case Err(f) => Err(f)
          case Ok(c2) =>
            Ok(Derived(fixed, TicketOf(c2, settings)))
  }

  /**
   When the upper-cased reference text has its leftmost OA match at `i`, the candidate is that
   match's key (hyphen quirk included) resolved manual table first; the ZD pattern is not consulted.
   */
  lemma OaCandidate(desc: string, manual: map<string, string>, oa2zd: map<string, string>, i: nat, len: nat)
    requires MatchAt(Upper(desc), i, "OA") == Some(len)
    requires forall j | 0 <= j < i :: MatchAt(Upper(desc), j, "OA").None?
    ensures var m := Upper(desc)[i..i + len];
            Candidate(desc, manual, oa2zd)
            == LookupOa("OA-" + (if m[2] == '-' then "-" else "") + MatchDigits(m), manual, oa2zd)
  {
    var t := Upper(desc);
    FirstMatch(t, "OA", i, len);
    OaKey(Matched(t, "OA"));
  }

  /** With no OA match anywhere, the leftmost ZD match gives the candidate: exactly its digits. */
  lemma ZdCandidate(desc: string, manual: map<string, string>, oa2zd: map<string, string>, i: nat, len: nat)
    requires forall j :: MatchAt(Upper(desc), j, "OA").None?
    requires MatchAt(Upper(desc), i, "ZD") == Some(len)
    requires forall j | 0 <= j < i :: MatchAt(Upper(desc), j, "ZD").None?
    ensures Candidate(desc, manual, oa2zd) == MatchDigits(Upper(desc)[i..i + len])
    ensures AllDigits(Candidate(desc, manual, oa2zd)) && 4 <= |Candidate(desc, manual, oa2zd)| <= 8
  {
    var t := Upper(desc);
    SearchMisses(t, "OA", 0);
    FirstMatch(t, "ZD", i, len);
    ZdKey(Matched(t, "ZD"));
  }

  /** A reference text matching neither pattern yields no candidate. */
  lemma NoPatternNoCandidate(desc: string, manual: map<string, string>, oa2zd: map<string, string>)
    requires forall j :: MatchAt(Upper(desc), j, "OA").None?
    requires forall j :: MatchAt(Upper(desc), j, "ZD").None?
    ensures Candidate(desc, manual, oa2zd) == ""
  {
  }

  /** The ticket number a final candidate gives: none when empty, else after the typo table. */
  function TicketOf(c: string, settings: Settings): (r: Option<string>)
    ensures r.None? <==> c == ""
    ensures r.Some? && c !in settings.ticketTypos ==> r.value == c
    ensures c != "" && c in settings.ticketTypos ==> r == Some(settings.ticketTypos[c])
  {
    if c == "" then None else Some(if c in settings.ticketTypos then settings.ticketTypos[c] else c)
  }

  /**
   A reference made of "OA", an optional space or hyphen and four to eight digits is looked up
   under "OA-" and its digits, with a second hyphen when it had one.
   */
  lemma OaReference(sep: string, d: string, manual: map<string, string>, oa2zd: map<string, string>)
    requires sep == "" || sep == " " || sep == "-"
    requires AllDigits(d) && 4 <= |d| <= 8
    ensures Candidate("OA" + sep + d, manual, oa2zd)
            == LookupOa("OA-" + (if sep == "-" then "-" else "") + d, manual, oa2zd)
  {
    var t := "OA" + sep + d;
    WholeOaMatch(sep, d);
    OaCandidate(t, manual, oa2zd, 0, |t|);
    assert Upper(t)[0..|t|] == t;
  }

  /** Such a reference is upper case already and is one whole OA match, whose digits are `d`. */
  lemma WholeOaMatch(sep: string, d: string)
    requires sep == "" || sep == " " || sep == "-"
    requires AllDigits(d) && 4 <= |d| <= 8
    ensures var t := "OA" + sep + d;
            && Upper(t) == t && MatchAt(t, 0, "OA") == Some(|t|)
            && MatchDigits(t) == d && (t[2] == '-' <==> sep == "-")
  {
    var t := "OA" + sep + d;
    var j := 2 + |sep|;
    assert t[..2] == "OA";
    assert forall k | j <= k < |t| :: t[k] == d[k - j];
    UpperFixed(t);
    MatchAtStart(t, "OA", sep != "", |d|);
    if sep == "" {
      assert t[2] == d[0] && IsDigit(d[0]);
    }
  }

  /** The patterns ignore case: "oa 1234" gives what "OA 1234" gives, for any four to eight digits. */
  lemma LowerCaseReference(d: string, manual: map<string, string>, oa2zd: map<string, string>)
    requires AllDigits(d) && 4 <= |d| <= 8
    ensures Candidate("oa " + d, manual, oa2zd) == LookupOa("OA-" + d, manual, oa2zd)
  {
    var lower, spaced := "oa " + d, "OA" + " " + d;
    assert Upper(lower) == spaced by {
      assert UpperChar('o') == 'O' && UpperChar('a') == 'A';
      assert forall k | 3 <= k < |lower| :: lower[k] == d[k - 3] && IsDigit(d[k - 3]);
    }
    UpperFixed(spaced);
    OaReference(" ", d, manual, oa2zd);
    assert "OA-" + "" + d == "OA-" + d;
  }

  /**
   "OA-1234" is looked up as "OA--1234": `replace("OA", "OA-")` runs on a match that already
   holds the hyphen, so a hyphenated reference misses a table keyed "OA-1234".
   */
  lemma HyphenatedReference(d: string, manual: map<string, string>, oa2zd: map<string, string>)
    requires AllDigits(d) && 4 <= |d| <= 8
    ensures Candidate("OA-" + d, manual, oa2zd) == LookupOa("OA--" + d, manual, oa2zd)
    ensures "OA--" + d !in manual && "OA--" + d !in oa2zd ==> Candidate("OA-" + d, manual, oa2zd) == ""
  {
    OaReference("-", d, manual, oa2zd);
    assert "OA" + "-" + d == "OA-" + d;
    assert "OA-" + "-" + d == "OA--" + d;
  }

  /** The manual table decides "OA 1128" whatever the general table says. */
  lemma ManualExample(d: string, oa2zd: map<string, string>)
    requires d == "1128"
    ensures Candidate("OA " + d, ManualOa2Zd, oa2zd) == "3743"
  {
    OaReference(" ", d, ManualOa2Zd, oa2zd);
    assert "OA" + " " + d == "OA " + d;
    assert "OA-" + "" + d == "OA-1128";
    ManualKey(oa2zd);
  }

  /** The manual table holds "OA-1128", so the general table is never consulted for it. */
  lemma ManualKey(oa2zd: map<string, string>)
    ensures LookupOa("OA-1128", ManualOa2Zd, oa2zd) == "3743"
  {
    assert ManualOa2Zd["OA-1128"] == "3743";
  }

  /** Without an override hit, the ticket is the pattern candidate after the typo table. */
  lemma NoOverrideUsesCandidate(row: Row, cols: Columns, settings: Settings,
                                manual: map<string, string>, oa2zd: map<string, string>)
    requires cols.oaNumber in row && cols.invoice in row
    requires var fixed := FixReference(row, cols, settings);
             && Strip(fixed[cols.invoice]) !in settings.invoiceToTicket
             && Strip(fixed[cols.oaNumber]) !in settings.descriptionToTicket
    ensures var fixed := FixReference(row, cols, settings);
            DeriveTicket(row, cols, settings, manual, oa2zd)
            == Ok(Derived(fixed, TicketOf(Candidate(fixed[cols.oaNumber], manual, oa2zd), settings)))
  {
  }

  /** An invoice override replaces the pattern candidate, when no description override follows. */
  lemma InvoiceOverrideReplacesCandidate(row: Row, cols: Columns, settings: Settings,
                                         manual: map<string, string>, oa2zd: map<string, string>)
    requires cols.oaNumber in row && cols.invoice in row
    requires var fixed := FixReference(row, cols, settings);
             && fixed[cols.invoice] in settings.invoiceToTicket
             && Strip(fixed[cols.invoice]) in settings.invoiceToTicket
             && Strip(fixed[cols.oaNumber]) !in settings.descriptionToTicket
    ensures var fixed := FixReference(row, cols, settings);
            DeriveTicket(row, cols, settings, manual, oa2zd)
            == Ok(Derived(fixed, TicketOf(settings.invoiceToTicket[fixed[cols.invoice]], settings)))
  {
  }

  /** The description override runs last, so it wins over the invoice override and the patterns. */
  lemma DescriptionOverrideWins(row: Row, cols: Columns, settings: Settings,
                                manual: map<string, string>, oa2zd: map<string, string>)
    requires cols.oaNumber in row && cols.invoice in row
    requires var fixed := FixReference(row, cols, settings);
             && fixed[cols.oaNumber] in settings.descriptionToTicket
             && Strip(fixed[cols.oaNumber]) in settings.descriptionToTicket
             && (Strip(fixed[cols.invoice]) in settings.invoiceToTicket ==> fixed[cols.invoice] in settings.invoiceToTicket)
    ensures var fixed := FixReference(row, cols, settings);
            DeriveTicket(row, cols, settings, manual, oa2zd)
            == Ok(Derived(fixed, TicketOf(settings.descriptionToTicket[fixed[cols.oaNumber]], settings)))
  {
  }

  /** An invoice that matches the override table only once stripped makes the lookup raise a KeyError. */
  lemma StrippedInvoiceOnly(row: Row, cols: Columns, settings: Settings,
                            manual: map<string, string>, oa2zd: map<string, string>)
    requires cols.oaNumber in row && cols.invoice in row
    requires var fixed := FixReference(row, cols, settings);
             && Strip(fixed[cols.invoice]) in settings.invoiceToTicket
             && fixed[cols.invoice] !in settings.invoiceToTicket
    ensures DeriveTicket(row, cols, settings, manual, oa2zd) == Err(MissingKey)
  {
  }

  /**
   A reference text that is in the description table only once stripped raises a KeyError,
   whatever the invoice override gave.
   */
  lemma StrippedDescriptionOnly(row: Row, cols: Columns, settings: Settings,
                                manual: map<string, string>, oa2zd: map<string, string>)
    requires cols.oaNumber in row && cols.invoice in row
    requires var fixed := FixReference(row, cols, settings);
             && Override(settings.invoiceToTicket, fixed[cols.invoice], Candidate(fixed[cols.oaNumber], manual, oa2zd)).Ok?
             && Strip(fixed[cols.oaNumber]) in settings.descriptionToTicket
             && fixed[cols.oaNumber] !in settings.descriptionToTicket
    ensures DeriveTicket(row, cols, settings, manual, oa2zd) == Err(MissingKey)
  {
  }

  /** " INV1" passes the stripped test against a table keyed "INV1" and then fails the lookup. */
  lemma StrippedInvoiceExample(padded: string, table: map<string, string>)
    requires padded == " INV1" && table == map["INV1" := "5000"]
    ensures Override(table, padded, "") == Err(MissingKey)
    ensures Override(table, padded[1..], "") == Ok("5000")
  {
    var q := padded[1..];
    assert q == "INV1";
    assert StripLeft(q, Whitespace) == q by {
      assert q[0] !in Whitespace;
    }
    assert StripLeft(padded, Whitespace) == q by {
      assert padded[0] in Whitespace;
    }
    assert StripRight(q, Whitespace) == q by {
      assert q[3] !in Whitespace;
    }
  }
}

=== FILE: totals.dfy ===
/**
 The totals the loop leaves behind. After a run that goes through, every ticket that received
 APC payments has an APC aggregate, and its entry in the master dictionary holds, in the APC
 total column, the sum of the amounts of exactly those rows; the same holds for other-cost
 payments and the other-cost total column. This holds provided the report has no column named
 like either total column and the two total columns differ, so that neither aggregate can
 overwrite the other's total in the master entry.
 */
module Totals {
  import opened Options
  import opened Amounts
  import opened Rows
  import opened Tickets
  import opened Payments
  import opened Reconcile
  import opened Effects

  /** The row pays into ticket `t`'s APC aggregate (`apc`) or its other-cost aggregate (`!apc`). */
  predicate PaysInto(f: Filed, t: string, apc: bool)
  {
    f.ticket == t && if apc then f.disposition == Apc || f.disposition == NoTransactionField else f.disposition == OtherCost
  }

  /** How far each row of a report gets. */
  function Filings(manual: map<string, string>, oa2zd: map<string, string>, report: Report, rows: seq<Row>): (fs: seq<Option<Filed>>)
    ensures |fs| == |rows|
    ensures forall i | 0 <= i < |rows| :: fs[i] == Filing(manual, oa2zd, report, rows[i])
  {
    seq(|rows|, i requires 0 <= i < |rows| => Filing(manual, oa2zd, report, rows[i]))
  }

  /** The contributions of the first `n` filed rows to ticket `t`'s aggregate, in row order. */
  function Paid(fs: seq<Option<Filed>>, amount: string, n: nat, t: string, apc: bool): seq<Option<int>>
    requires n <= |fs|
  {
    if n == 0 then []
    else
      Paid(fs, amount, n - 1, t, apc)
      + if fs[n - 1].Some? && PaysInto(fs[n - 1].value, t, apc) then [Contribution(fs[n - 1].value.row, amount)] else []
  }

  /** The sum of some contributions; None as soon as one of them is not a number. */
  function Sum(xs: seq<Option<int>>): Option<int>
  {
    if xs == [] then Some(0)
    else
      var init, last := Sum(xs[..|xs| - 1]), xs[|xs| - 1];
      if init.Some? && last.Some? then Some(init.value + last.value) else None
  }

  lemma SumSnoc(xs: seq<Option<int>>, x: Option<int>)
    ensures Sum(xs + [x]) == if Sum(xs).Some? && x.Some? then Some(Sum(xs).value + x.value) else None
  {
    assert (xs + [x])[..|xs|] == xs;
  }

  /** The report cannot clash with the columns the loop writes its totals into. */
  predicate TotalsApart(report: Report, rows: seq<Row>)
  {
    && report.cols.apcTotal != report.cols.otherTotal
    && forall i | 0 <= i < |rows| :: report.cols.apcTotal !in rows[i] && report.cols.otherTotal !in rows[i]
  }

  /**
   One side of the invariant: every aggregate of the side holds its own total and not the
   other side's, the total reads back as the sum of the contributions so far, and the master
   entry of the ticket carries the same total text; every ticket with a contribution has an
   aggregate.
   */
  ghost predicate Side(fs: seq<Option<Filed>>, amount: string, n: nat, master: map<string, Row>,
                       aggs: map<string, Row>, apc: bool, total: string, otherTotal: string)
    requires n <= |fs|
  {
    && (forall t | t in aggs :: Entry(fs, amount, n, master, aggs, apc, total, otherTotal, t))
    && (forall t | Paid(fs, amount, n, t, apc) != [] :: t in aggs)
  }

  /** The invariant for the aggregate of one ticket `t`. */
  ghost predicate Entry(fs: seq<Option<Filed>>, amount: string, n: nat, master: map<string, Row>,
                        aggs: map<string, Row>, apc: bool, total: string, otherTotal: string, t: string)
    requires n <= |fs| && t in aggs
  {
    && total in aggs[t] && otherTotal !in aggs[t]
    && Paid(fs, amount, n, t, apc) != []
    && ParseAmount(aggs[t][total]) == Sum(Paid(fs, amount, n, t, apc))
    && t in master && total in master[t] && master[t][total] == aggs[t][total]
  }

  ghost predicate Consistent(fs: seq<Option<Filed>>, cols: Columns, n: nat, master: map<string, Row>, agg: Aggregates)
    requires n <= |fs|
  {
    && Side(fs, cols.amount, n, master, agg.apc, true, cols.apcTotal, cols.otherTotal)
    && Side(fs, cols.amount, n, master, agg.other, false, cols.otherTotal, cols.apcTotal)
  }

  /** A side whose aggregates and contributions a row leaves alone, while the master takes a record without its total. */
  lemma SideKept(fs: seq<Option<Filed>>, amount: string, n: nat, master: map<string, Row>,
                 aggs: map<string, Row>, apc: bool, total: string, otherTotal: string, master': map<string, Row>)
    requires n < |fs|
    requires Side(fs, amount, n, master, aggs, apc, total, otherTotal)
    requires !(fs[n].Some? && PaysInto(fs[n].value, fs[n].value.ticket, apc))
    requires master'.Keys == master.Keys
    requires forall t | t in master :: total in master[t] ==> total in master'[t] && master'[t][total] == master[t][total]
    ensures Side(fs, amount, n + 1, master', aggs, apc, total, otherTotal)
  {
    forall t | t in aggs
      ensures Entry(fs, amount, n + 1, master', aggs, apc, total, otherTotal, t)
    {
      assert Entry(fs, amount, n, master, aggs, apc, total, otherTotal, t);
      assert Paid(fs, amount, n + 1, t, apc) == Paid(fs, amount, n, t, apc);
    }
    forall t | Paid(fs, amount, n + 1, t, apc) != []
      ensures t in aggs
    {
      assert Paid(fs, amount, n + 1, t, apc) == Paid(fs, amount, n, t, apc);
    }
  }

  /** A row that pays into `zd` adds its contribution to the sum of `zd`'s contributions. */
  lemma PaidSnoc(fs: seq<Option<Filed>>, amount: string, n: nat, zd: string, apc: bool)
    requires n < |fs| && fs[n].Some? && PaysInto(fs[n].value, zd, apc)
    ensures var prev, c := Sum(Paid(fs, amount, n, zd, apc)), Contribution(fs[n].value.row, amount);
            Sum(Paid(fs, amount, n + 1, zd, apc)) == if prev.Some? && c.Some? then Some(prev.value + c.value) else None
  {
    var c := Contribution(fs[n].value.row, amount);
    var prev := Paid(fs, amount, n, zd, apc);
    assert Paid(fs, amount, n + 1, zd, apc) == prev + [c];
    SumSnoc(prev, c);
  }

  /**
   The total of a record that takes a row's contribution reads as the sum of the ticket's
   contributions so far, that row's included.
   */
  lemma TotalAdded(fs: seq<Option<Filed>>, amount: string, n: nat, zd: string, apc: bool,
                   aggs: map<string, Row>, total: string, rec: Row)
    requires n < |fs| && fs[n].Some? && PaysInto(fs[n].value, zd, apc)
    requires zd in aggs ==> total in aggs[zd] && ParseAmount(aggs[zd][total]) == Sum(Paid(fs, amount, n, zd, apc))
    requires zd !in aggs ==> Paid(fs, amount, n, zd, apc) == []
    requires Absorbs(total, amount, zd, fs[n].value.row, aggs, rec)
    ensures ParseAmount(rec[total]) == Sum(Paid(fs, amount, n + 1, zd, apc))
  {
    var c := Contribution(fs[n].value.row, amount);
    PaidSnoc(fs, amount, n, zd, apc);
    if zd in aggs {
      assert Sum(Paid(fs, amount, n, zd, apc)).Some? && c.Some?;
    } else {
      assert Sum(Paid(fs, amount, n, zd, apc)) == Some(0);
    }
  }

  /** A side whose aggregate for `zd` becomes `rec`, the row's contribution added to it. */
  lemma SideGrown(fs: seq<Option<Filed>>, amount: string, n: nat, master: map<string, Row>,
                  aggs: map<string, Row>, apc: bool, total: string, otherTotal: string, zd: string, rec: Row)
    requires n < |fs|
    requires Side(fs, amount, n, master, aggs, apc, total, otherTotal)
    requires fs[n].Some? && PaysInto(fs[n].value, zd, apc)
    requires zd in master
    requires total in rec && otherTotal !in rec
    requires ParseAmount(rec[total]) == Sum(Paid(fs, amount, n + 1, zd, apc))
    ensures Side(fs, amount, n + 1, master[zd := master[zd] + rec], aggs[zd := rec], apc, total, otherTotal)
  {
    var master', aggs' := master[zd := master[zd] + rec], aggs[zd := rec];
    forall t | t in aggs'
      ensures Entry(fs, amount, n + 1, master', aggs', apc, total, otherTotal, t)
    {
      if t != zd {
        assert Entry(fs, amount, n, master, aggs, apc, total, otherTotal, t);
        assert Paid(fs, amount, n + 1, t, apc) == Paid(fs, amount, n, t, apc);
      } else {
        assert master'[t][total] == rec[total];
        assert Paid(fs, amount, n + 1, t, apc) == Paid(fs, amount, n, t, apc) + [Contribution(fs[n].value.row, amount)];
      }
    }
    forall t | Paid(fs, amount, n + 1, t, apc) != []
      ensures t in aggs'
    {
      if t != zd {
        assert Paid(fs, amount, n + 1, t, apc) == Paid(fs, amount, n, t, apc);
      }
    }
  }

  /** The master entry of `zd` takes a record without `total`: every total the master held is kept. */
  lemma MasterTotalsKept(master: map<string, Row>, zd: string, rec: Row, total: string)
    requires zd in master && total !in rec
    ensures var master' := master[zd := master[zd] + rec];
            forall t | t in master :: total in master[t] ==> total in master'[t] && master'[t][total] == master[t][total]
  {
  }

  /** A new record for `zd` on one side, pushed into the master entry, keeps both sides of the invariant. */
  lemma GrowSide(fs: seq<Option<Filed>>, amount: string, n: nat, master: map<string, Row>,
                 aggs: map<string, Row>, others: map<string, Row>, apc: bool, total: string, otherTotal: string,
                 zd: string, rec: Row)
    requires n < |fs| && fs[n].Some? && PaysInto(fs[n].value, zd, apc)
    requires Side(fs, amount, n, master, aggs, apc, total, otherTotal)
    requires Side(fs, amount, n, master, others, !apc, otherTotal, total)
    requires zd in master && total in rec && otherTotal !in rec
    requires ParseAmount(rec[total]) == Sum(Paid(fs, amount, n + 1, zd, apc))
    ensures var master' := master[zd := master[zd] + rec];
            && Side(fs, amount, n + 1, master', aggs[zd := rec], apc, total, otherTotal)
            && Side(fs, amount, n + 1, master', others, !apc, otherTotal, total)
  {
    var master' := master[zd := master[zd] + rec];
    SideGrown(fs, amount, n, master, aggs, apc, total, otherTotal, zd, rec);
    MasterTotalsKept(master, zd, rec, otherTotal);
    SideKept(fs, amount, n, master, others, !apc, otherTotal, total, master');
  }

  /** A new record for `zd` in the category of `d`, pushed into the master entry, keeps the invariant. */
  lemma GrowConsistent(fs: seq<Option<Filed>>, cols: Columns, n: nat, master: map<string, Row>, agg: Aggregates,
                       d: Disposition, zd: string, rec: Row)
    requires n < |fs| && fs[n].Some? && fs[n].value.ticket == zd && fs[n].value.disposition == d && Accepted(d)
    requires Consistent(fs, cols, n, master, agg)
    requires zd in master
    requires TotalOf(cols, d) in rec && TotalOf(cols, if d == OtherCost then Apc else OtherCost) !in rec
    requires ParseAmount(rec[TotalOf(cols, d)]) == Sum(Paid(fs, cols.amount, n + 1, zd, d != OtherCost))
    ensures var agg' := if d == OtherCost then agg.(other := agg.other[zd := rec]) else agg.(apc := agg.apc[zd := rec]);
            Consistent(fs, cols, n + 1, master[zd := master[zd] + rec], agg')
  {
    if d != OtherCost {
      GrowSide(fs, cols.amount, n, master, agg.apc, agg.other, true, cols.apcTotal, cols.otherTotal, zd, rec);
    } else {
      GrowSide(fs, cols.amount, n, master, agg.other, agg.apc, false, cols.otherTotal, cols.apcTotal, zd, rec);
    }
  }

  /** A row that is not aggregated and does not raise leaves the master dictionary and the aggregates alone. */
  lemma NotAggregated(manual: map<string, string>, oa2zd: map<string, string>, report: Report,
                      n: nat, row: Row, books: Books, agg: Aggregates)
    requires var f := Filing(manual, oa2zd, report, row); !(f.Some? && Accepted(f.value.disposition))
    requires !Step(manual, oa2zd, report, n, row, books, agg).outcome.Faulted?
    ensures var s := Step(manual, oa2zd, report, n, row, books, agg);
            s.books.master == books.master && s.agg == agg
  {
    var f := Filing(manual, oa2zd, report, row);
    if f.Some? {
      RejectedRow(manual, oa2zd, report, n, row, books, agg, f.value);
    } else {
      match DeriveTicket(row, report.cols, report.settings, manual, oa2zd)
      case Err(_) =>
      case Ok(dt) =>
        if dt.ticket.None? {
          UnmatchedRow(manual, oa2zd, report, n, row, books, agg, dt.row);
        }
    }
  }

  /**
   A record `rec` that an accepted row stores for its ticket, with the total the accumulation
   gives it, keeps the invariant once it is pushed into the master entry.
   */
  lemma RecordConsistent(fs: seq<Option<Filed>>, cols: Columns, n: nat, master: map<string, Row>, agg: Aggregates,
                         d: Disposition, zd: string, row: Row, rec: Row)
    requires n < |fs| && fs[n] == Some(Filed(zd, d, row)) && Accepted(d)
    requires Consistent(fs, cols, n, master, agg)
    requires zd in master
    requires cols.apcTotal != cols.otherTotal && cols.apcTotal !in row && cols.otherTotal !in row
    requires Absorbs(TotalOf(cols, d), cols.amount, zd, row, SideOf(agg, d), rec)
    ensures var agg' := if d == OtherCost then agg.(other := agg.other[zd := rec]) else agg.(apc := agg.apc[zd := rec]);
            Consistent(fs, cols, n + 1, master[zd := master[zd] + rec], agg')
  {
    var total, aggs := TotalOf(cols, d), SideOf(agg, d);
    var other := TotalOf(cols, if d == OtherCost then Apc else OtherCost);
    assert zd in aggs ==> other !in aggs[zd] && ParseAmount(aggs[zd][total]) == Sum(Paid(fs, cols.amount, n, zd, d != OtherCost)) by {
      if zd in aggs {
        assert Entry(fs, cols.amount, n, master, aggs, d != OtherCost, total, other, zd);
      }
    }
    assert other !in rec;
    TotalAdded(fs, cols.amount, n, zd, d != OtherCost, aggs, total, rec);
    GrowConsistent(fs, cols, n, master, agg, d, zd, rec);
  }

  /** One row that does not raise keeps the invariant, with its own contribution added. */
  lemma StepConsistent(manual: map<string, string>, oa2zd: map<string, string>, report: Report,
                       rows: seq<Row>, n: nat, books: Books, agg: Aggregates)
    requires n < |rows| && TotalsApart(report, rows)
    requires Consistent(Filings(manual, oa2zd, report, rows), report.cols, n, books.master, agg)
    requires !Step(manual, oa2zd, report, n, rows[n], books, agg).outcome.Faulted?
    ensures var s := Step(manual, oa2zd, report, n, rows[n], books, agg);
            Consistent(Filings(manual, oa2zd, report, rows), report.cols, n + 1, s.books.master, s.agg)
  {
    var fs := Filings(manual, oa2zd, report, rows);
    var cols := report.cols;
    var f := fs[n];
    if f.Some? && Accepted(f.value.disposition) {
      var d, zd, row := f.value.disposition, f.value.ticket, f.value.row;
      var st := Settle(report, n, row, zd, books, agg);
      StepClassified(manual, oa2zd, report, n, rows[n], books, agg, f.value);
      assert row.Keys == rows[n].Keys;
      assert cols.apcTotal !in row && cols.otherTotal !in row;
      AcceptedRow(report, n, row, zd, books, agg, d);
      AcceptedRecord(report, n, row, zd, books, agg, d);
      var rec := SideOf(st.agg, d)[zd];
      RecordConsistent(fs, cols, n, books.master, agg, d, zd, row, rec);
    } else {
      NotAggregated(manual, oa2zd, report, n, rows[n], books, agg);
      SideKept(fs, cols.amount, n, books.master, agg.apc, true, cols.apcTotal, cols.otherTotal, books.master);
      SideKept(fs, cols.amount, n, books.master, agg.other, false, cols.otherTotal, cols.apcTotal, books.master);
    }
  }

  /** The invariant holds at the start of a call, before any row, with no aggregates. */
  lemma ConsistentAtStart(fs: seq<Option<Filed>>, cols: Columns, master: map<string, Row>)
    ensures Consistent(fs, cols, 0, master, NoAggregates)
  {
    forall t, apc: bool ensures Paid(fs, cols.amount, 0, t, apc) == [] {
    }
  }

  /** The loop from row `n` on keeps the invariant up to the end, when it goes through. */
  lemma {:induction false} ConsistentFrom(manual: map<string, string>, oa2zd: map<string, string>, report: Report,
                                          rows: seq<Row>, n: nat, books: Books, agg: Aggregates)
    requires n <= |rows| && TotalsApart(report, rows)
    requires Consistent(Filings(manual, oa2zd, report, rows), report.cols, n, books.master, agg)
    ensures var (b, o) := RunFrom(manual, oa2zd, report, rows, n, books, agg);
            o.Completed? ==> Consistent(Filings(manual, oa2zd, report, rows), report.cols, |rows|, b.master, o.agg)
    decreases |rows| - n, 1
  {
    if n < |rows| {
      ConsistentAfterStep(manual, oa2zd, report, rows, n, books, agg);
    }
  }

  /** The inductive step of `ConsistentFrom`: row `n` keeps the invariant, then so do the rest. */
  lemma {:induction false} ConsistentAfterStep(manual: map<string, string>, oa2zd: map<string, string>, report: Report,
                                               rows: seq<Row>, n: nat, books: Books, agg: Aggregates)
    requires n < |rows| && TotalsApart(report, rows)
    requires Consistent(Filings(manual, oa2zd, report, rows), report.cols, n, books.master, agg)
    ensures var (b, o) := RunFrom(manual, oa2zd, report, rows, n, books, agg);
            o.Completed? ==> Consistent(Filings(manual, oa2zd, report, rows), report.cols, |rows|, b.master, o.agg)
    decreases |rows| - n, 0
  {
    var s := Step(manual, oa2zd, report, n, rows[n], books, agg);
    if !s.outcome.Faulted? {
      assert RunFrom(manual, oa2zd, report, rows, n, books, agg)
          == RunFrom(manual, oa2zd, report, rows, n + 1, s.books, s.agg);
      StepConsistent(manual, oa2zd, report, rows, n, books, agg);
      ConsistentFrom(manual, oa2zd, report, rows, n + 1, s.books, s.agg);
    } else {
      assert RunFrom(manual, oa2zd, report, rows, n, books, agg).1.Aborted?;
    }
  }

  /**
   After a call that goes through, a ticket has an APC aggregate exactly when some row paid an
   APC into it, and then its master entry holds, in the APC total column, a total that reads as
   the sum of those rows' amounts (None when one of them is not a number); the same for
   other-cost payments and the other-cost total column.
   */
  lemma RunTotals(manual: map<string, string>, oa2zd: map<string, string>, report: Report,
                  rows: seq<Row>, books: Books)
    requires TotalsApart(report, rows)
    ensures var (b, o) := Run(manual, oa2zd, report, rows, books);
            var fs, cols := Filings(manual, oa2zd, report, rows), report.cols;
            o.Completed? ==>
              && (forall t :: t in o.agg.apc <==> Paid(fs, cols.amount, |rows|, t, true) != [])
              && (forall t | t in o.agg.apc :: && t in b.master && cols.apcTotal in b.master[t]
                                               && ParseAmount(b.master[t][cols.apcTotal]) == Sum(Paid(fs, cols.amount, |rows|, t, true)))
              && (forall t :: t in o.agg.other <==> Paid(fs, cols.amount, |rows|, t, false) != [])
              && (forall t | t in o.agg.other :: && t in b.master && cols.otherTotal in b.master[t]
                                                 && ParseAmount(b.master[t][cols.otherTotal]) == Sum(Paid(fs, cols.amount, |rows|, t, false)))
  {
    var fs := Filings(manual, oa2zd, report, rows);
    ConsistentAtStart(fs, report.cols, books.master);
    ConsistentFrom(manual, oa2zd, report, rows, 0, books, NoAggregates);
    var (b, o) := Run(manual, oa2zd, report, rows, books);
    if o.Completed? {
      var cols := report.cols;
      forall t | t in o.agg.apc
        ensures Entry(fs, cols.amount, |rows|, b.master, o.agg.apc, true, cols.apcTotal, cols.otherTotal, t)
      {
      }
      forall t | t in o.agg.other
        ensures Entry(fs, cols.amount, |rows|, b.master, o.agg.other, false, cols.otherTotal, cols.apcTotal, t)
      {
      }
    }
  }
}
